=== FILE: README.md ===
# Finlit registration bot — a verified model

The Finlit bot registers participants for a networking event over Telegram. A
user sends `/start` and answers a fixed sequence of questions:

- four text steps: name, workplace, career field, interests;
- a multi-select of networking goals (at least one required);
- the region (text);
- a multi-select of languages, with a free-text "other" escape;
- a single-select meeting format;
- a phone number, typed or shared as a contact.

The conversation then ends and a summary goes to the user and the organizers.
The bot itself keeps no database: `finlit_registration_bot.py` never calls
`storage.py`. That module defines the flat `Registration` record and
`Registration.from_context`, which builds the record from an answer store.
The model includes it and proves what it would build from the answers a
conversation leaves.

This project models that core in Dafny:

- `options.dfy` (`Options`): an optional value, Python's `None` or a value.
- `strings.dfy` (`Strings`): the Python string operations the bot relies on:
  - `str.strip()` with Python's whitespace set;
  - `split(",")` and `", ".join`;
  - `split("::", 1)`;
  - `startswith`;
  - a decimal `int()`/`str()` pair.
- `ordering.dfy` (`Ordering`): Python's `<` on `str`, and `sorted(set)` as the
  unique strictly ascending listing of a set.
- `admins.dfy` (`Admins`): `parse_admins`. It is a loop method proved against a
  specification function, plus a round trip with the setting's own format.
- `phone_numbers.dfy` (`PhoneNumbers`): `sanitize_phone` and the `len >= 7`
  acceptance rule.
- `keyboards.dfy` (`Keyboards`): buttons and keyboards as values, covering:
  - the `opt::`/`pick::` callback data and its decoding;
  - the toggle a multi-select press applies;
  - `make_multiselect_kb`, a loop method proved against a specification function;
  - `make_singleselect_kb`.
- `answers.dfy` (`Answers`): `context.user_data` as a map from field names to a
  text or a selected set. It also holds the two list lines built from the sets,
  and `bold`.
- `flow.dfy` (`Flow`): the conversation as a transition function, covering:
  - the handlers;
  - the routing of the `ConversationHandler` table in `build_app`;
  - the library rule that `END` leaves the conversation and `None` stays in
    the current state;
  - an invariant of the answer store.
- `bot.dfy` (`Bot`): the same conversation as a `Conversation` object. Its
  `state` and `userData` fields are updated in place by one method per handler.
  Each method is proved against the corresponding `Flow` function, and
  `HandleUpdate` against `Flow.Step`.
- `storage.dfy` (`Storage`): the `Registration` record and
  `Registration.from_context`, with the clock reading passed in as text.
- `summary.dfy` (`Summary`): the values `build_summary` fills into its message.
- `scenarios.dfy` (`Scenarios`): a complete registration from `/start` to the
  phone number, and the record `from_context` builds from its final answers.

An update is modelled as a bot command, a message (its text and a shared
contact's number), or a button press (its callback data). The conversation
routes an update as the `ConversationHandler` of `build_app` does:

1. `/start` is the entry point. Re-entry is allowed, so it is taken in every
   state.
2. Next come the current state's handlers:
   - text steps take non-command text;
   - the phone step also takes a contact;
   - button steps take any press.
3. `/cancel` is the fallback, so it applies only inside a conversation.

## Model

| member | source | states |
|---|---|---|
| Admins.ParseAdmins | finlit_registration_bot.py:43-55 | returns exactly the ids of `AdminIds`: none for a missing or empty setting, otherwise the integers of the comma-separated pieces, in order |
| Admins.KeptIds | finlit_registration_bot.py:47-54 | never more ids than comma-separated pieces |
| Admins.KeptIdsMembers | finlit_registration_bot.py:47-54 | an id is returned if and only if some piece strips to that integer; blank and non-numeric pieces contribute nothing |
| Admins.KeptIdsAppend | finlit_registration_bot.py:47-54 | the ids of consecutive pieces come out in piece order |
| Admins.AdminIdsRoundTrip | finlit_registration_bot.py:43-57 | any id list written as decimals joined by commas is read back exactly, in order |
| Strings.StripShape | finlit_registration_bot.py:48 | a stripped string has no whitespace at either end, and is empty exactly when the input is all whitespace |
| Strings.StripIsSlice | finlit_registration_bot.py:48 | `strip()` removes only whitespace, from both ends of the input |
| Strings.StripIdempotent | finlit_registration_bot.py:136 | stripping twice is stripping once |
| Strings.Split | finlit_registration_bot.py:47 | `split(",")` gives at least one piece, none containing the separator |
| Strings.SplitThenJoin | finlit_registration_bot.py:47 | the pieces joined with the separator give back the input |
| Strings.SplitOnce | finlit_registration_bot.py:166 | `split("::", 1)` cuts at the first occurrence, or returns the input whole when there is none |
| Strings.TaggedPayload | finlit_registration_bot.py:84 | `tag::v` splits back into the tag and `v`, even when `v` contains `::` |
| Strings.ParseDecimal | finlit_registration_bot.py:52 | `int()` reads back the decimal text of every integer |
| PhoneNumbers.SanitizePhone | finlit_registration_bot.py:97-102 | the result holds only digits and `+`; a filtered number of nine or more characters starts with `+`; a shorter one is returned unchanged; a `+` is added exactly when the filtered number is non-empty, does not start with `+` and has nine or more characters |
| PhoneNumbers.SanitizePhoneIdempotent | finlit_registration_bot.py:97-102 | sanitizing a sanitized number changes nothing |
| PhoneNumbers.KeepPhoneCharsAppend | finlit_registration_bot.py:99 | the filter works piece by piece: the kept characters of a concatenation are those of each part, in order |
| PhoneNumbers.KeepPhoneCharsClean | finlit_registration_bot.py:99 | filtering a string of digits and `+` keeps it whole |
| Keyboards.OptionDataDecodes | finlit_registration_bot.py:84 | the data of every option button decodes to exactly its option |
| Keyboards.PickDataDecodes | finlit_registration_bot.py:95 | the data of every format button decodes to exactly its option |
| Keyboards.PayloadAfterTag | finlit_registration_bot.py:165-166 | any data starting with `opt::` or `pick::` decodes to the rest of the data |
| Keyboards.FixedDataUntagged | finlit_registration_bot.py:87-89 | the done and free-text buttons are never taken for an option press |
| Keyboards.Toggle | finlit_registration_bot.py:167-170 | a press flips the pressed option's membership and leaves every other option as it was |
| Keyboards.ToggleTwice | finlit_registration_bot.py:167-170 | pressing the same option twice restores the selection |
| Keyboards.MakeMultiselectKb | finlit_registration_bot.py:78-92 | the loop builds exactly `MultiSelectKeyboard` |
| Keyboards.MultiSelectLayout | finlit_registration_bot.py:78-92 | one row per option in the given order; each option's button is labelled with the checked or unchecked mark, a space and the option, decodes to the option and is checked exactly when it is selected; one extra row exactly when done or free text is asked for, with free text before done |
| Keyboards.MultiSelectLayoutIgnoresSelection | finlit_registration_bot.py:82-84 | the selection changes only the marks: rows, callback data, label lengths and the label text after the mark are the same for any selection |
| Keyboards.MultiSelectToggleTwice | finlit_registration_bot.py:196-203 | pressing an option twice shows the keyboard of before |
| Keyboards.SingleSelectLayout | finlit_registration_bot.py:94-95 | one row per option, in order, labelled with the option, whose data decodes to it |
| Ordering.SortedOf | storage.py:93 | `sorted(set)` lists every element once, in strictly ascending order |
| Ordering.SortedOfUnique | storage.py:93 | any strictly ascending listing of the set's elements is `sorted(set)` |
| Answers.KeyNameInjective | storage.py:89-98 | different fields are stored under different dictionary keys |
| Answers.JoinedSelectionMissing | finlit_registration_bot.py:105 | a missing selection gives the empty line |
| Answers.JoinedSelectionAscending | finlit_registration_bot.py:105 | the goal line is the ascending options joined by ", ", whatever order they were pressed in |
| Answers.LanguagesTextLast | finlit_registration_bot.py:106-107 | non-empty free-text languages come last, after ", " when languages were also selected |
| Answers.LanguagesWithoutText | finlit_registration_bot.py:106-107 | without free text the language line is the selected languages alone |
| Answers.Bold | finlit_registration_bot.py:75-76 | `bold(s)` is `s` between `<b>` and `</b>`, with nothing else |
| Flow.StartReply | finlit_registration_bot.py:127-133 | `start` empties the answers and asks for the name |
| Flow.CancelReply | finlit_registration_bot.py:276-279 | `cancel` empties the answers and ends the conversation |
| Flow.TextAnswer | finlit_registration_bot.py:135-148 | a text step adds its field, holding the stripped text, keeps every other answer, and moves to the given step |
| Flow.AskNetworking | finlit_registration_bot.py:150-158 | stores the stripped interests and an empty goal set, keeps every other answer, and moves to the goal step |
| Flow.NetworkingCallback | finlit_registration_bot.py:160-179 | the goal step stays, moves to the region or returns `None`; it moves on only with a goal selected and then changes nothing; only an option press changes the answers, and it stays in the goal step; no answer but the goal set changes |
| Flow.AskLanguages | finlit_registration_bot.py:181-189 | stores the stripped region and an empty language set, keeps every other answer, and moves to the language step |
| Flow.LanguagesCallback | finlit_registration_bot.py:191-213 | the language step stays, asks for free text, moves to the format or returns `None`; only an option press changes the answers, and it stays in the language step; no answer but the language set changes |
| Flow.LanguagesTextDone | finlit_registration_bot.py:215-219 | stores the stripped free-text languages, keeps every other answer, and moves to the format step |
| Flow.FormatCallback | finlit_registration_bot.py:221-234 | moves to the phone step exactly for `pick::` data, storing the text after `pick::` as the format and keeping every other answer; any other data returns `None` and changes nothing |
| Flow.PhoneReply | finlit_registration_bot.py:236-262 | either stays in the phone step with the answers unchanged, or ends after adding the sanitized number, which has at least seven characters, all digits or `+`, and keeping every other answer |
| Flow.Dispatch | finlit_registration_bot.py:285-301 | which updates the conversation takes: `/start` always, with the start handler; another command only when it is `/cancel` inside a conversation; a message with text in a text step, or with text or a contact in the phone step; a button press only in the three button steps; and outside a conversation nothing but `/start` |
| Flow.Step | finlit_registration_bot.py:285-301 | an update no handler takes changes nothing; only `/start` opens a conversation; a conversation ends only by `/cancel`, which empties the answers, or by a phone message that stores a number of at least seven characters |
| Storage.FromContext | storage.py:82-100 | the Telegram id and username come from the user and the time from the clock; an empty goal selection gives an empty goal line |
| Flow.StepConsistent | finlit_registration_bot.py:285-301 | every update keeps the invariant: each field holds its kind of value, the earlier steps are answered, goals are non-empty past the goal step, a fresh start holds nothing, and topics and self description are never set |
| Flow.RunConsistent | finlit_registration_bot.py:285-301 | any sequence of updates keeps the invariant |
| Flow.ReachableConsistent | finlit_registration_bot.py:285-301 | every session reached from no conversation satisfies the invariant |
| Flow.StartResets | finlit_registration_bot.py:127-133 | `/start` in any state, active or not, clears every answer and asks for the name |
| Flow.CancelEnds | finlit_registration_bot.py:276-279 | `/cancel` inside a conversation clears every answer and ends it; outside one it changes nothing |
| Flow.NoAnswersSurviveStart | finlit_registration_bot.py:127-133 | after `/start` the outcome of any further updates is independent of everything before |
| Flow.InactiveIgnores | finlit_registration_bot.py:285-301 | outside a conversation only `/start` does anything |
| Flow.TextStepAdvances | finlit_registration_bot.py:135-158 | a text answer is stored stripped, even when empty; the steps advance name, workplace, career, interests, goals and region, languages, and free text to format; entering goals or languages starts that selection empty |
| Flow.MessagesIgnoredOutsideTextSteps | finlit_registration_bot.py:287-296 | a message without text in a text step, or any message in a button step, changes nothing |
| Flow.CallbacksIgnoredInMessageSteps | finlit_registration_bot.py:287-296 | a button press in a step waiting for a message changes nothing |
| Flow.GoalPressToggles | finlit_registration_bot.py:160-172 | an option press in the goal step flips that goal only, stays in the goal step and changes no other answer |
| Flow.LanguagePressToggles | finlit_registration_bot.py:191-204 | an option press in the language step flips that language only and stays there |
| Flow.GoalPressTwice | finlit_registration_bot.py:165-172 | pressing a goal twice gives back the session of before |
| Flow.GoalsDone | finlit_registration_bot.py:174-179 | "done" with no goal stays in the goal step; with a goal it moves to the region |
| Flow.LanguagesDoneOrOther | finlit_registration_bot.py:205-213 | "done" moves to the format with no minimum; "other" asks for free text and keeps the selection |
| Flow.OtherLanguagesKeepSelection | finlit_registration_bot.py:205-219 | free-text languages are stored next to the selected ones, which stay, and the flow moves to the format |
| Flow.UnknownCallbackIgnored | finlit_registration_bot.py:160-234 | callback data a button step does not recognise returns `None` and changes nothing: the goal step ignores all but option presses and "done", the language step all but those and "other", the format step all but `pick::` presses, so another step's button data is ignored too |
| Flow.FormatPicked | finlit_registration_bot.py:221-234 | a format press stores the format and asks for the phone |
| Flow.PhoneStep | finlit_registration_bot.py:236-262 | a sanitized number shorter than seven characters is refused, the step stays and nothing is stored; otherwise it is stored and the conversation ends |
| Flow.ContactWins | finlit_registration_bot.py:237-240 | a shared contact with a number decides the outcome whatever the message text |
| Flow.StoredPhoneShape | finlit_registration_bot.py:236-250 | a stored phone holds only digits and `+`, has at least seven characters, and starts with `+` when it has nine or more |
| Flow.CompletedHasAllAnswers | finlit_registration_bot.py:236-262 | a completed registration holds every answer the steps ask for, at least one goal, and the phone |
| Bot.Conversation.constructor | finlit_registration_bot.py:285-301 | a new conversation is inactive with no answers and satisfies the invariant |
| Bot.Conversation.Start | finlit_registration_bot.py:127-133 | clears the answers in place and returns the name state, as `Flow.StartReply` |
| Bot.Conversation.AskWorkplace | finlit_registration_bot.py:135-138 | stores the stripped name in place and returns the workplace state, as `Flow.TextAnswer` |
| Bot.Conversation.AskCareer | finlit_registration_bot.py:140-143 | stores the stripped workplace and returns the career state |
| Bot.Conversation.AskInterests | finlit_registration_bot.py:145-148 | stores the stripped career field and returns the interests state |
| Bot.Conversation.AskNetworking | finlit_registration_bot.py:150-158 | stores the interests, resets the goal set and returns the goal state |
| Bot.Conversation.OnNetworkingCb | finlit_registration_bot.py:160-179 | updates the goal set in place and returns as `Flow.NetworkingCallback` |
| Bot.Conversation.AskLanguages | finlit_registration_bot.py:181-189 | stores the region, resets the language set and returns the language state |
| Bot.Conversation.OnLanguagesCb | finlit_registration_bot.py:191-213 | updates the language set in place and returns as `Flow.LanguagesCallback` |
| Bot.Conversation.OnLanguagesText | finlit_registration_bot.py:215-219 | stores the stripped free-text languages and returns the format state |
| Bot.Conversation.OnFormatCb | finlit_registration_bot.py:221-234 | stores the picked format and returns the phone state, or `None` for other data |
| Bot.Conversation.OnPhone | finlit_registration_bot.py:236-262 | stores an acceptable sanitized phone and returns `END`, or returns the phone state |
| Bot.Conversation.Cancel | finlit_registration_bot.py:276-279 | clears the answers and returns `END` |
| Bot.Conversation.HandleUpdate | finlit_registration_bot.py:285-301 | the new state and answers are exactly `Flow.Step` of the old ones, and the invariant is kept |
| Storage.RecordTextFields | storage.py:89-98 | each text field of the record is the stored answer, or `""` when it is missing |
| Storage.RecordIdentity | storage.py:86-88 | the Telegram id, the username and the time come from the user and the clock, whatever was answered |
| Storage.RecordGoals | storage.py:93 | the goal field is the ascending goals joined by ", ", and `""` when no goal set was stored |
| Storage.RecordLanguages | storage.py:95 | the language field is the ascending languages, then the non-empty free text, joined by ", " |
| Storage.UnaskedFieldsEmpty | storage.py:96-98 | topics and self description are `""` in every record the conversation can produce |
| Summary.SummaryAgreesWithRecord | finlit_registration_bot.py:104-124 | the summary shows the organizers the same answers and list lines `from_context` puts in the record |
| Summary.UserLinkIdentifies | finlit_registration_bot.py:110 | the user link is `@` and the username, or the decimal id, which reads back as the id |
| Summary.CompletedSummaryPhone | finlit_registration_bot.py:108 | the summary of a completed registration shows the stored phone of at least seven characters, never the placeholder |
| Scenarios.FullRegistration | finlit_registration_bot.py:285-301 | whatever came before, `/start`, the text answers, two goals, a language with free text, a format and a valid phone end the conversation, and the record `from_context` builds from the final answers holds exactly those answers |

## Left out

- Telegram transport is not modelled: replies, keyboard edits, `q.answer()`, polling and the `Application` object. The keyboards are values; only the routing of the `ConversationHandler` is modelled.
- The `ConversationHandler` keeps one conversation per chat and user (its default `per_chat` and `per_user`), while `context.user_data` is one dictionary per user, shared by all of that user's chats. The model is one user's conversation in one chat (the private chat with the bot). Not captured: a `/start` the same user sends in another chat (a group with the bot), or a `/cancel` there while the user also has a conversation open in that chat, empties the answers of a conversation still in progress in the private chat, which can then complete with an almost empty answer store. `Flow.Consistent`, `Flow.CompletedHasAllAnswers` and `Scenarios.FullRegistration` hold only for the single chat.
- The loop that messages each organizer after a registration (finlit_registration_bot.py:256-260) is left out. It sends messages and swallows their failures, and nothing in the conversation depends on it.
- `datetime.now(TZ)` and time zones are not modelled. `from_context` takes the formatted time as a parameter, and the summary's time line is left out.
- Environment and configuration loading, logging, MySQL (`db_connect`, `ensure_db`, `Registration.save`) and the Excel export are left out. They are I/O.
- The HTML template text of `build_summary` and the `whoami` and `help` commands are not modelled. They only format messages.
- Edited messages are not modelled. In python-telegram-bot 20 and later, the version `build_app` is written for, a `CommandHandler` also handles edited messages by default. So an edited `/start`, or an edited `/cancel` inside a conversation, runs `start` or `cancel`. These clear `context.user_data` and then reply through `update.message`, which is `None` for an edit (finlit_registration_bot.py:128-129, 277-278). The handler raises before it returns, so the state stays while the answers are gone, and a valid phone can then end the conversation with an almost empty answer store. `Flow.Consistent`, `Flow.CompletedHasAllAnswers` and `Scenarios.FullRegistration` hold only for updates that are new messages. This follows the library's documented defaults.
- Replies are assumed to succeed. In the source a reply that Telegram refuses raises inside the handler, before it returns, so the conversation stays in its state with whatever the handler already stored. For example, the summary is sent with HTML parsing and the answers go into it unescaped (finlit_registration_bot.py:75-76, 111-124, 253). An answer containing `<` can make Telegram refuse it, which leaves the source in the phone step with `phone` stored and no organizer messaged. `Flow.PhoneReply` always ends the conversation.
- Strings.ParseInt: models `int()` as an optional sign followed by ASCII decimal digits. Python also accepts underscores between digits and non-ASCII decimal digits; those pieces are skipped by the model but kept by Python.
- PhoneNumbers.KeepPhoneChars: counts only ASCII digits as digits. Python's `str.isdigit` also keeps other Unicode digits.
- Answers.Key: the dictionary keys are an enumeration of the twelve field names rather than arbitrary strings. `KeyName` gives each its Python string, and `KeyNameInjective` shows that no two names share one.
- Registration has no phone field in the source. The model follows it, so the phone appears only in the answer store and the summary.

Behaviour the code does not have, so the model does not have it either:

- empty (all-whitespace) text answers are stored, not rejected;
- "done" on the language step needs no selection;
- `/cancel` outside a conversation is not handled by it and leaves the answers in place;
- the answers are not cleared when a registration completes;
- there is no single-select toggling and no restart-from-confirmation step.

=== FILE: admins.dfy ===
/**
 * `parse_admins`: the organizer ids read from the comma-separated
 * `ORGANIZER_IDS` setting, e.g. "111111111,222222222".
 */
module Admins {
  import opened Options
  import opened Strings

  /** The id one comma-separated piece contributes: the integer it strips
      to, if it strips to one. */
  function PieceId(piece: string): Option<int> {
    ParseInt(Strip(piece))
  }

  /** The ids one piece contributes: its integer, or none. */
  function Contribution(piece: string): seq<int> {
    match PieceId(piece)
    case Some(n) => [n]
    case None => []
  }

  /** The ids of the pieces that hold one, in the order of the pieces. */
  function KeptIds(pieces: seq<string>): (ids: seq<int>)
    ensures |ids| <= |pieces|
  {
    if pieces == [] then [] else Contribution(pieces[0]) + KeptIds(pieces[1..])
  }

  /** What `parse_admins(raw)` returns: nothing for a missing or empty
      setting, otherwise the ids among its comma-separated pieces. */
  function AdminIds(raw: Option<string>): seq<int> {
    if raw.None? || raw.value == "" then [] else KeptIds(Split(raw.value, ','))
  }

  /** Keeping ids distributes over concatenation of the piece list, so the
      ids keep the relative order of their pieces. */
  lemma {:induction false} KeptIdsAppend(a: seq<string>, b: seq<string>)
    ensures KeptIds(a + b) == KeptIds(a) + KeptIds(b)
  {
    if a == [] {
      assert a + b == b;
    } else {
      assert (a + b)[0] == a[0];
      assert (a + b)[1..] == a[1..] + b;
      KeptIdsAppend(a[1..], b);
    }
  }

  /** An id is kept exactly when some piece strips to that integer. */
  lemma {:induction false} KeptIdsMembers(pieces: seq<string>, n: int)
    ensures n in KeptIds(pieces) <==> exists k :: 0 <= k < |pieces| && PieceId(pieces[k]) == Some(n)
  {
    if pieces != [] {
      KeptIdsMembers(pieces[1..], n);
      if n in KeptIds(pieces[1..]) {
        var k :| 0 <= k < |pieces[1..]| && PieceId(pieces[1..][k]) == Some(n);
        assert PieceId(pieces[k + 1]) == Some(n);
      }
      if exists k :: 0 <= k < |pieces| && PieceId(pieces[k]) == Some(n) {
        var k :| 0 <= k < |pieces| && PieceId(pieces[k]) == Some(n);
        if k > 0 { assert PieceId(pieces[1..][k - 1]) == Some(n); }
      }
    }
  }

  /** Proof step of `ParseAdmins`'s loop: a prefix one longer is the
      prefix plus the next piece. */
  lemma TakeOneMore<T>(s: seq<T>, i: nat)
    requires i < |s|
    ensures s[..i + 1] == s[..i] + [s[i]]
  {
  }

  /** The loop of `parse_admins`: split on commas, strip each piece, skip
      blank pieces, append the integer of each piece `int()` accepts and
      skip the rest. */
  method ParseAdmins(raw: Option<string>) returns (ids: seq<int>)
    ensures ids == AdminIds(raw)
  {
    if raw.None? || raw.value == "" {
      return [];
    }
    var pieces := Split(raw.value, ',');
    ids := [];
    for i := 0 to |pieces|
      invariant ids == KeptIds(pieces[..i])
    {
      assert KeptIds(pieces[..i + 1]) == ids + Contribution(pieces[i]) by {
        TakeOneMore(pieces, i);
        KeptIdsAppend(pieces[..i], [pieces[i]]);
      }
      var p := Strip(pieces[i]);
      if p == "" {
        continue;
      }
      match ParseInt(p) {
        case Some(n) =>
          ids := ids + [n];
        case None =>
      }
    }
    assert pieces[..|pieces|] == pieces;
  }

  // ---------------------------------------------------------------------
  // The setting's own format: ids written in decimal, joined by commas
  // ---------------------------------------------------------------------

  function DecimalAll(ids: seq<int>): (texts: seq<string>)
    ensures |texts| == |ids|
    ensures forall k :: 0 <= k < |ids| ==> texts[k] == Decimal(ids[k])
  {
    if ids == [] then [] else [Decimal(ids[0])] + DecimalAll(ids[1..])
  }

  /** The setting value that lists `ids`, e.g. "111111111,222222222". */
  function RenderIds(ids: seq<int>): string {
    Join(DecimalAll(ids), ",")
  }

  lemma {:induction false} SplitAfterPiece(a: string, t: string, c: char)
    requires c !in a
    ensures Split(a + [c] + t, c) == [a] + Split(t, c)
  {
    if a == [] {
      assert a + [c] + t == [c] + t;
    } else {
      assert (a + [c] + t)[1..] == a[1..] + [c] + t;
      SplitAfterPiece(a[1..], t, c);
      assert a == [a[0]] + a[1..];
    }
  }

  lemma {:induction false} SplitWithoutSeparator(a: string, c: char)
    requires c !in a
    ensures Split(a, c) == [a]
  {
    if a != [] {
      SplitWithoutSeparator(a[1..], c);
      assert a == [a[0]] + a[1..];
    }
  }

  /** Splitting a join of separator-free pieces gives the pieces back. */
  lemma {:induction false} JoinThenSplit(xs: seq<string>, c: char)
    requires xs != []
    requires forall k :: 0 <= k < |xs| ==> c !in xs[k]
    ensures Split(Join(xs, [c]), c) == xs
  {
    if |xs| == 1 {
      SplitWithoutSeparator(xs[0], c);
    } else {
      JoinThenSplit(xs[1..], c);
      SplitAfterPiece(xs[0], Join(xs[1..], [c]), c);
    }
  }

  lemma DecimalShape(n: int)
    ensures Decimal(n) != "" && ',' !in Decimal(n)
    ensures Strip(Decimal(n)) == Decimal(n)
  {
    var d := Decimal(n);
    assert !IsSpace(d[0]) && !IsSpace(d[|d| - 1]);
    assert LeadingSpace(d) == 0;
    assert TrailingSpace(d[0..]) == 0 by { assert d[0..] == d; }
  }

  /** `parse_admins` reads back every id list written in the setting's
      format, in order. */
  lemma AdminIdsRoundTrip(ids: seq<int>)
    ensures AdminIds(Some(RenderIds(ids))) == ids
  {
    if ids != [] {
      var texts := DecimalAll(ids);
      forall k | 0 <= k < |texts|
        ensures ',' !in texts[k] && Strip(texts[k]) == texts[k]
      {
        DecimalShape(ids[k]);
      }
      JoinThenSplit(texts, ',');
      assert RenderIds(ids) != "" by {
        DecimalShape(ids[0]);
        if |texts| > 1 { assert |Join(texts, ",")| >= |texts[0]|; }
      }
      KeptIdsOfDecimals(ids);
    }
  }

  lemma {:induction false} KeptIdsOfDecimals(ids: seq<int>)
    ensures KeptIds(DecimalAll(ids)) == ids
  {
    if ids != [] {
      DecimalShape(ids[0]);
      ParseDecimal(ids[0]);
      assert DecimalAll(ids)[1..] == DecimalAll(ids[1..]);
      KeptIdsOfDecimals(ids[1..]);
    }
  }
}

=== FILE: answers.dfy ===
/**
 * The per-user answer store (`context.user_data`): field names mapped to a
 * text answer or to the set chosen in a multi-select step, and the list
 * lines the summary and the stored record build from the two sets.
 */
module Answers {
  import opened Strings
  import opened Ordering

  /** A value the bot stores: a text answer or a multi-select set. */
  datatype Answer = Str(text: string) | Chosen(options: set<string>)

  /** The names the handlers store answers under. */
  datatype Key =
    | FullNameKey | WorkplaceKey | CareerFieldKey | InterestsKey
    | NetworkingKey | RegionKey | LanguagesKey | LanguagesTextKey
    | MeetFormatKey | PhoneKey | TopicsKey | SelfDescKey

  /** The dictionary key each name stands for. */
  function KeyName(k: Key): string {
    match k
    case FullNameKey => "full_name"
    case WorkplaceKey => "workplace"
    case CareerFieldKey => "career_field"
    case InterestsKey => "interests"
    case NetworkingKey => "networking_selected"
    case RegionKey => "region"
    case LanguagesKey => "languages_selected"
    case LanguagesTextKey => "languages_text"
    case MeetFormatKey => "meet_format"
    case PhoneKey => "phone"
    case TopicsKey => "topics"
    case SelfDescKey => "self_desc"
  }

  /** The first letter of each name, and the length of the two language
      names, which share theirs. */
  lemma KeyNameShape(k: Key)
    ensures KeyName(k)[0] == match k
      case FullNameKey => 'f' case WorkplaceKey => 'w' case CareerFieldKey => 'c'
      case InterestsKey => 'i' case NetworkingKey => 'n' case RegionKey => 'r'
      case LanguagesKey => 'l' case LanguagesTextKey => 'l' case MeetFormatKey => 'm'
      case PhoneKey => 'p' case TopicsKey => 't' case SelfDescKey => 's'
    ensures k == LanguagesKey ==> |KeyName(k)| == 18
    ensures k == LanguagesTextKey ==> |KeyName(k)| == 14
  {
  }

  /** Different names are different dictionary keys, so a map on names is
      the dictionary on its keys. */
  lemma KeyNameInjective(a: Key, b: Key)
    requires KeyName(a) == KeyName(b)
    ensures a == b
  {
    KeyNameShape(a);
    KeyNameShape(b);
  }

  /** The answer store: a dictionary from field names to answers. */
  type UserData = map<Key, Answer>

  /** The separator of both list lines. */
  const ListSeparator: string := ", "

  /** `ud.get(key, "")` for a field that holds text. */
  function TextOf(ud: UserData, key: Key): string {
    if key in ud && ud[key].Str? then ud[key].text else ""
  }

  /** `ud.get(key, set())` for a field that holds a selection. */
  function SelectionOf(ud: UserData, key: Key): set<string> {
    if key in ud && ud[key].Chosen? then ud[key].options else {}
  }

  /** Text fields hold text and exactly the two multi-select fields hold
      sets, as every handler stores them. */
  predicate WellTyped(ud: UserData) {
    forall k :: k in ud ==> (ud[k].Chosen? <==> (k == NetworkingKey || k == LanguagesKey))
  }

  /** `", ".join(sorted(ud.get(key, set())))`. */
  function JoinedSelection(ud: UserData, key: Key): string {
    Join(SortedOf(SelectionOf(ud, key)), ListSeparator)
  }

  /** The sorted languages, then the free-text languages when that text is
      non-empty. */
  function LanguageItems(ud: UserData): seq<string> {
    var other := TextOf(ud, LanguagesTextKey);
    SortedOf(SelectionOf(ud, LanguagesKey)) + (if other != "" then [other] else [])
  }

  /** The languages line: `", ".join(sorted(languages) + [languages_text])`. */
  function JoinedLanguages(ud: UserData): string {
    Join(LanguageItems(ud), ListSeparator)
  }

  /** A missing selection gives the empty line. */
  lemma JoinedSelectionMissing(ud: UserData, key: Key)
    requires key !in ud
    ensures JoinedSelection(ud, key) == ""
  {
  }

  /** The line is the join of the one strictly ascending list of the
      selected options, so it depends on the set alone and not on the order
      the options were pressed in. */
  lemma JoinedSelectionAscending(ud: UserData, key: Key, xs: seq<string>)
    requires StrictlyAscending(xs)
    requires forall x :: x in xs <==> x in SelectionOf(ud, key)
    ensures JoinedSelection(ud, key) == Join(xs, ListSeparator)
  {
    SortedOfUnique(SelectionOf(ud, key), xs);
  }

  /** Non-empty free-text languages come last, after the selected ones. */
  lemma LanguagesTextLast(ud: UserData)
    requires TextOf(ud, LanguagesTextKey) != ""
    ensures var other := TextOf(ud, LanguagesTextKey);
      JoinedLanguages(ud) ==
        if SelectionOf(ud, LanguagesKey) == {} then other
        else JoinedSelection(ud, LanguagesKey) + ListSeparator + other
  {
    var sorted := SortedOf(SelectionOf(ud, LanguagesKey));
    if sorted != [] {
      JoinSnoc(sorted, TextOf(ud, LanguagesTextKey), ListSeparator);
    } else {
      assert LanguageItems(ud) == [TextOf(ud, LanguagesTextKey)];
    }
  }

  /** Without free-text languages the line is the selected languages alone. */
  lemma LanguagesWithoutText(ud: UserData)
    requires TextOf(ud, LanguagesTextKey) == ""
    ensures JoinedLanguages(ud) == JoinedSelection(ud, LanguagesKey)
  {
    assert LanguageItems(ud) == SortedOf(SelectionOf(ud, LanguagesKey));
  }

  /** `bold(s)`: the text wrapped in an HTML bold element. */
  function Bold(s: string): (r: string)
    ensures |r| == |s| + 7
    ensures r[..3] == "<b>" && r[|r| - 4..] == "</b>"
    ensures r[3..|r| - 4] == s
  {
    "<b>" + s + "</b>"
  }
}

=== FILE: bot.dfy ===
/**
 * One user's registration conversation in one chat as an object: the
 * conversation state the library keeps for that chat and user, and the
 * `context.user_data`
 * dictionary the handlers update in place. Each handler method changes the
 * dictionary as the handler does and returns what it returns; `HandleUpdate`
 * routes an update to a handler and applies the returned state.
 */
module Bot {
  import opened Options
  import opened Strings
  import opened Keyboards
  import opened PhoneNumbers
  import opened Answers
  import opened Flow

  /** Only `HandleUpdate` keeps `Valid()`: a handler method changes the
      answers before the returned state is applied, and in between the two
      the invariant need not hold (`Start` empties the answers while the
      state is still the old one). */
  class Conversation {
    var state: State
    var userData: UserData

    /** The invariant every reachable conversation keeps. */
    ghost predicate Valid()
      reads this
    {
      Consistent(Session(state, userData))
    }

    /** No conversation yet and no answers. */
    constructor ()
      ensures state == Inactive && userData == map[]
      ensures Valid()
    {
      state := Inactive;
      userData := map[];
    }

    /** `start`: clear every answer and ask for the name. */
    method Start() returns (o: Outcome)
      modifies this`userData
      ensures Reply(userData, o) == StartReply()
    {
      userData := map[];
      o := Goto(Name);
    }

    /** `ask_workplace`: store the name, ask for the workplace. */
    method AskWorkplace(text: string) returns (o: Outcome)
      modifies this`userData
      ensures Reply(userData, o) == TextAnswer(old(userData), FullNameKey, text, Workplace)
    {
      userData := userData[FullNameKey := Str(Strip(text))];
      o := Goto(Workplace);
    }

    /** `ask_career`: store the workplace, ask for the career field. */
    method AskCareer(text: string) returns (o: Outcome)
      modifies this`userData
      ensures Reply(userData, o) == TextAnswer(old(userData), WorkplaceKey, text, Career)
    {
      userData := userData[WorkplaceKey := Str(Strip(text))];
      o := Goto(Career);
    }

    /** `ask_interests`: store the career field, ask for the interests. */
    method AskInterests(text: string) returns (o: Outcome)
      modifies this`userData
      ensures Reply(userData, o) == TextAnswer(old(userData), CareerFieldKey, text, Interests)
    {
      userData := userData[CareerFieldKey := Str(Strip(text))];
      o := Goto(Interests);
    }

    /** `ask_networking`: store the interests and start an empty goal set. */
    method AskNetworking(text: string) returns (o: Outcome)
      modifies this`userData
      ensures Reply(userData, o) == Flow.AskNetworking(old(userData), text)
    {
      userData := userData[InterestsKey := Str(Strip(text))];
      userData := userData[NetworkingKey := Chosen({})];
      o := Goto(Networking);
    }

    /** `on_networking_cb`. */
    method OnNetworkingCb(data: string) returns (o: Outcome)
      modifies this`userData
      ensures Reply(userData, o) == NetworkingCallback(old(userData), data)
    {
      var selected := SelectionOf(userData, NetworkingKey);
      if StartsWith(data, "opt::") {
        PayloadAfterTag(data, OptionTag);
        var v := Payload(data).value;
        if v in selected {
          selected := selected - {v};
        } else {
          selected := selected + {v};
        }
        userData := userData[NetworkingKey := Chosen(selected)];
        o := Goto(Networking);
      } else if data == "done::ok" {
        if selected == {} {
          o := Goto(Networking);
        } else {
          o := Goto(Region);
        }
      } else {
        o := NoneReturned;
      }
    }

    /** `ask_languages`: store the region and start an empty language set. */
    method AskLanguages(text: string) returns (o: Outcome)
      modifies this`userData
      ensures Reply(userData, o) == Flow.AskLanguages(old(userData), text)
    {
      userData := userData[RegionKey := Str(Strip(text))];
      userData := userData[LanguagesKey := Chosen({})];
      o := Goto(Languages);
    }

    /** `on_languages_cb`. */
    method OnLanguagesCb(data: string) returns (o: Outcome)
      modifies this`userData
      ensures Reply(userData, o) == LanguagesCallback(old(userData), data)
    {
      var selected := SelectionOf(userData, LanguagesKey);
      if StartsWith(data, "opt::") {
        PayloadAfterTag(data, OptionTag);
        var v := Payload(data).value;
        if v in selected {
          selected := selected - {v};
        } else {
          selected := selected + {v};
        }
        userData := userData[LanguagesKey := Chosen(selected)];
        o := Goto(Languages);
      } else if data == "alt::text" {
        o := Goto(LanguagesText);
      } else if data == "done::ok" {
        o := Goto(MeetFormat);
      } else {
        o := NoneReturned;
      }
    }

    /** `languages_text_done`: store the free-text languages. */
    method OnLanguagesText(text: string) returns (o: Outcome)
      modifies this`userData
      ensures Reply(userData, o) == LanguagesTextDone(old(userData), text)
    {
      userData := userData[LanguagesTextKey := Str(Strip(text))];
      o := Goto(MeetFormat);
    }

    /** `on_format_cb`. */
    method OnFormatCb(data: string) returns (o: Outcome)
      modifies this`userData
      ensures Reply(userData, o) == FormatCallback(old(userData), data)
    {
      if StartsWith(data, "pick::") {
        PayloadAfterTag(data, PickTag);
        userData := userData[MeetFormatKey := Str(Payload(data).value)];
        o := Goto(PhoneNumber);
      } else {
        o := NoneReturned;
      }
    }

    /** `on_phone`: a contact's number when it has one, else the text. */
    method OnPhone(text: Option<string>, contact: Option<string>) returns (o: Outcome)
      modifies this`userData
      ensures Reply(userData, o) == PhoneReply(old(userData), text, contact)
    {
      var phone: string;
      if contact.Some? && contact.value != "" {
        phone := contact.value;
      } else {
        phone := Strip(OrEmpty(text));
      }
      phone := SanitizePhone(Some(phone));
      if phone == "" || |phone| < 7 {
        return Goto(PhoneNumber);
      }
      userData := userData[PhoneKey := Str(phone)];
      o := End;
    }

    /** `cancel`: clear every answer and end the conversation. */
    method Cancel() returns (o: Outcome)
      modifies this`userData
      ensures Reply(userData, o) == CancelReply()
    {
      userData := map[];
      o := End;
    }

    /** One update: the handler the conversation routes it to runs, and the
        conversation moves to the state it returns (`END` leaves the
        conversation, `None` stays). An update no handler takes changes
        nothing. The invariant of the answer store is kept. */
    method HandleUpdate(e: Event)
      requires Valid()
      modifies this
      ensures Session(state, userData) == Step(old(Session(state, userData)), e)
      ensures Valid()
    {
      ghost var before := Session(state, userData);
      StepConsistent(before, e);
      var o: Outcome;
      match e {
        case Command(name) =>
          if name == "start" {
            o := Start();
          } else if name == "cancel" && state != Inactive {
            o := Cancel();
          } else {
            return;
          }
        case Message(text, contact) =>
          if state == PhoneNumber {
            if text.None? && contact.None? {
              return;
            }
            o := OnPhone(text, contact);
          } else if text.None? {
            return;
          } else if state == Name {
            o := AskWorkplace(text.value);
          } else if state == Workplace {
            o := AskCareer(text.value);
          } else if state == Career {
            o := AskInterests(text.value);
          } else if state == Interests {
            o := AskNetworking(text.value);
          } else if state == Region {
            o := AskLanguages(text.value);
          } else if state == LanguagesText {
            o := OnLanguagesText(text.value);
          } else {
            return;
          }
        case Callback(data) =>
          if state == Networking {
            o := OnNetworkingCb(data);
          } else if state == Languages {
            o := OnLanguagesCb(data);
          } else if state == MeetFormat {
            o := OnFormatCb(data);
          } else {
            return;
          }
      }
      match o {
        case Goto(next) => state := next;
        case End => state := Inactive;
        case NoneReturned =>
      }
    }
  }
}

=== FILE: flow.dfy ===
/**
 * The registration conversation as a transition function: which handler
 * the conversation routes an update to in each state, what each handler
 * stores in the answer store and returns, and how the returned value moves
 * the conversation (`END` leaves it, `None` stays in the current state).
 */
module Flow {
  import opened Options
  import opened Strings
  import opened Keyboards
  import opened PhoneNumbers
  import opened Answers

  /** The ten conversation states, plus `Inactive`: no conversation (never
      started, or ended by `END`). */
  datatype State =
    | Inactive
    | Name | Workplace | Career | Interests | Networking
    | Region | Languages | LanguagesText | MeetFormat | PhoneNumber

  /** An update from one user, as the conversation's handlers tell them apart. */
  datatype Event =
    /** A message that is a bot command, `/name`. */
    | Command(name: string)
    /** Any other message: its text, and the phone number of a shared
        contact ("" when the contact carries none). */
    | Message(text: Option<string>, contact: Option<string>)
    /** A press on an inline button, with its callback data. */
    | Callback(data: string)

  /** What a handler returns: a state, `ConversationHandler.END`, or `None`. */
  datatype Outcome = Goto(next: State) | End | NoneReturned

  /** A handler's effect: the answer store it leaves and what it returns. */
  datatype Reply = Reply(data: UserData, outcome: Outcome)

  /** One user's conversation: the current state and `context.user_data`. */
  datatype Session = Session(state: State, data: UserData)

  const StartCommand: string := "start"
  const CancelCommand: string := "cancel"

  // ---------------------------------------------------------------------
  // The handlers
  // ---------------------------------------------------------------------

  /** `start`: clear the answers and ask for the name. */
  function StartReply(): (r: Reply)
    ensures r.data == map[] && r.outcome == Goto(Name)
  {
    Reply(map[], Goto(Name))
  }

  /** `cancel`: clear the answers and end the conversation. */
  function CancelReply(): (r: Reply)
    ensures r.data == map[] && r.outcome == End
  {
    Reply(map[], End)
  }

  /** `ask_workplace`, `ask_career`, `ask_interests`: store the stripped text
      under `key` and go to `next`. */
  function TextAnswer(ud: UserData, key: Key, text: string, next: State): (r: Reply)
    ensures r.data.Keys == ud.Keys + {key}
    ensures r.data[key] == Str(Strip(text))
    ensures forall k :: k in ud && k != key ==> r.data[k] == ud[k]
    ensures r.outcome == Goto(next)
  {
    Reply(ud[key := Str(Strip(text))], Goto(next))
  }

  /** `ask_networking`: store the interests and start an empty goal selection. */
  function AskNetworking(ud: UserData, text: string): (r: Reply)
    ensures r.data.Keys == ud.Keys + {InterestsKey, NetworkingKey}
    ensures r.data[InterestsKey] == Str(Strip(text))
    ensures NetworkingKey in r.data && r.data[NetworkingKey] == Chosen({})
    ensures forall k :: k in ud && k != InterestsKey && k != NetworkingKey ==> r.data[k] == ud[k]
    ensures r.outcome == Goto(Networking)
  {
    Reply(ud[InterestsKey := Str(Strip(text))][NetworkingKey := Chosen({})], Goto(Networking))
  }

  /** `ask_languages`: store the region and start an empty language selection. */
  function AskLanguages(ud: UserData, text: string): (r: Reply)
    ensures r.data.Keys == ud.Keys + {RegionKey, LanguagesKey}
    ensures r.data[RegionKey] == Str(Strip(text))
    ensures LanguagesKey in r.data && r.data[LanguagesKey] == Chosen({})
    ensures forall k :: k in ud && k != RegionKey && k != LanguagesKey ==> r.data[k] == ud[k]
    ensures r.outcome == Goto(Languages)
  {
    Reply(ud[RegionKey := Str(Strip(text))][LanguagesKey := Chosen({})], Goto(Languages))
  }

  /** The option an `opt::` or `pick::` press carries. */
  function TaggedOption(data: string, tag: string): (r: string)
    requires ':' !in tag
    requires StartsWith(data, tag + "::")
    ensures r == data[|tag| + 2..]
  {
    PayloadAfterTag(data, tag);
    Payload(data).value
  }

  /** `on_networking_cb`: an option press toggles that goal; "done" moves on
      only when at least one goal is selected; other data returns `None`. */
  function NetworkingCallback(ud: UserData, data: string): (r: Reply)
    ensures r.outcome == Goto(Networking) || r.outcome == Goto(Region) || r.outcome == NoneReturned
    ensures r.outcome == Goto(Region) ==> SelectionOf(ud, NetworkingKey) != {}
    ensures r.outcome == Goto(Region) ==> r.data == ud
    ensures !StartsWith(data, OptionTag + "::") ==> r.data == ud
    ensures StartsWith(data, OptionTag + "::") ==> r.outcome == Goto(Networking)
    ensures ud.Keys <= r.data.Keys <= ud.Keys + {NetworkingKey}
    ensures forall k :: k in ud && k != NetworkingKey ==> r.data[k] == ud[k]
  {
    var selected := SelectionOf(ud, NetworkingKey);
    if StartsWith(data, OptionTag + "::") then
      Reply(ud[NetworkingKey := Chosen(Toggle(selected, TaggedOption(data, OptionTag)))], Goto(Networking))
    else if data == DoneData then
      if selected == {} then Reply(ud, Goto(Networking)) else Reply(ud, Goto(Region))
    else Reply(ud, NoneReturned)
  }

  /** `on_languages_cb`: an option press toggles that language; "other" asks
      for free text; "done" moves on with no minimum; other data returns
      `None`. */
  function LanguagesCallback(ud: UserData, data: string): (r: Reply)
    ensures r.outcome == Goto(Languages) || r.outcome == Goto(LanguagesText)
         || r.outcome == Goto(MeetFormat) || r.outcome == NoneReturned
    ensures r.outcome != Goto(Languages) ==> r.data == ud
    ensures !StartsWith(data, OptionTag + "::") ==> r.data == ud
    ensures StartsWith(data, OptionTag + "::") ==> r.outcome == Goto(Languages)
    ensures ud.Keys <= r.data.Keys <= ud.Keys + {LanguagesKey}
    ensures forall k :: k in ud && k != LanguagesKey ==> r.data[k] == ud[k]
  {
    var selected := SelectionOf(ud, LanguagesKey);
    if StartsWith(data, OptionTag + "::") then
      Reply(ud[LanguagesKey := Chosen(Toggle(selected, TaggedOption(data, OptionTag)))], Goto(Languages))
    else if data == AltData then Reply(ud, Goto(LanguagesText))
    else if data == DoneData then Reply(ud, Goto(MeetFormat))
    else Reply(ud, NoneReturned)
  }

  /** `languages_text_done`: store the free-text languages beside the
      selection and ask for the format. */
  function LanguagesTextDone(ud: UserData, text: string): (r: Reply)
    ensures r.data.Keys == ud.Keys + {LanguagesTextKey}
    ensures r.data[LanguagesTextKey] == Str(Strip(text))
    ensures forall k :: k in ud && k != LanguagesTextKey ==> r.data[k] == ud[k]
    ensures r.outcome == Goto(MeetFormat)
  {
    Reply(ud[LanguagesTextKey := Str(Strip(text))], Goto(MeetFormat))
  }

  /** `on_format_cb`: a `pick::` press stores the format and asks for the
      phone; other data returns `None`. */
  function FormatCallback(ud: UserData, data: string): (r: Reply)
    ensures r.outcome == Goto(PhoneNumber) || r.outcome == NoneReturned
    ensures r.outcome == Goto(PhoneNumber) <==> StartsWith(data, PickTag + "::")
    ensures r.outcome == Goto(PhoneNumber) ==>
      r.data.Keys == ud.Keys + {MeetFormatKey} && r.data[MeetFormatKey] == Str(data[|PickTag| + 2..])
    ensures r.outcome == NoneReturned ==> r.data == ud
    ensures forall k :: k in ud && k != MeetFormatKey ==> r.data[k] == ud[k]
  {
    if StartsWith(data, PickTag + "::") then
      Reply(ud[MeetFormatKey := Str(TaggedOption(data, PickTag))], Goto(PhoneNumber))
    else Reply(ud, NoneReturned)
  }

  /** The number `on_phone` sanitizes: a shared contact's non-empty number,
      else the message text stripped. */
  function PhoneSource(text: Option<string>, contact: Option<string>): string {
    if contact.Some? && contact.value != "" then contact.value else Strip(OrEmpty(text))
  }

  /** `on_phone`: a sanitized number shorter than seven characters is
      refused and the phone is asked again; otherwise it is stored and the
      conversation ends. */
  function PhoneReply(ud: UserData, text: Option<string>, contact: Option<string>): (r: Reply)
    ensures r.outcome == End || r.outcome == Goto(PhoneNumber)
    ensures r.outcome == Goto(PhoneNumber) ==> r.data == ud
    ensures r.outcome == End ==>
      && r.data.Keys == ud.Keys + {PhoneKey}
      && r.data[PhoneKey].Str?
      && var phone := r.data[PhoneKey].text;
      && |phone| >= MinPhoneLength && AllPhoneChars(phone)
      && phone == SanitizePhone(Some(PhoneSource(text, contact)))
    ensures forall k :: k in ud && k != PhoneKey ==> r.data[k] == ud[k]
  {
    var phone := SanitizePhone(Some(PhoneSource(text, contact)));
    if !AcceptablePhone(phone) then Reply(ud, Goto(PhoneNumber))
    else Reply(ud[PhoneKey := Str(phone)], End)
  }

  // ---------------------------------------------------------------------
  // Routing and the library's state update
  // ---------------------------------------------------------------------

  /** The handler the conversation runs for an update, and its reply, or
      `None` when no handler of the conversation takes the update. `/start`
      is the entry point and, with re-entry allowed, is taken in every
      state; a state's own handlers come next (text handlers take
      non-command text, the phone handler also a contact, callback handlers
      any button press); `/cancel` is the fallback inside a conversation. */
  function Dispatch(state: State, ud: UserData, e: Event): (r: Option<Reply>)
    ensures e == Command(StartCommand) ==> r == Some(StartReply())
    ensures e.Command? && e.name != StartCommand ==>
      (r.Some? <==> e.name == CancelCommand && state != Inactive)
    ensures e.Message? ==>
      (r.Some? <==> if state == PhoneNumber then e.text.Some? || e.contact.Some?
                    else e.text.Some? && TextStep(state).Some?)
    ensures e.Callback? ==>
      (r.Some? <==> state == Networking || state == Languages || state == MeetFormat)
    ensures state == Inactive ==> (r.Some? <==> e == Command(StartCommand))
  {
    match e
    case Command(name) =>
      if name == StartCommand then Some(StartReply())
      else if name == CancelCommand && state != Inactive then Some(CancelReply())
      else None
    case Message(text, contact) =>
      if state == PhoneNumber then
        if text.Some? || contact.Some? then Some(PhoneReply(ud, text, contact)) else None
      else if text.None? then None
      else (match state
        case Name => Some(TextAnswer(ud, FullNameKey, text.value, Workplace))
        case Workplace => Some(TextAnswer(ud, WorkplaceKey, text.value, Career))
        case Career => Some(TextAnswer(ud, CareerFieldKey, text.value, Interests))
        case Interests => Some(AskNetworking(ud, text.value))
        case Region => Some(AskLanguages(ud, text.value))
        case LanguagesText => Some(LanguagesTextDone(ud, text.value))
        case _ => None)
    case Callback(data) =>
      match state
      case Networking => Some(NetworkingCallback(ud, data))
      case Languages => Some(LanguagesCallback(ud, data))
      case MeetFormat => Some(FormatCallback(ud, data))
      case _ => None
  }

  /** The state after a handler returned `outcome`: `END` leaves the
      conversation, `None` keeps the current state. */
  function After(state: State, outcome: Outcome): State {
    match outcome
    case Goto(next) => next
    case End => Inactive
    case NoneReturned => state
  }

  /** One update processed by the conversation. */
  function Step(s: Session, e: Event): (t: Session)
    ensures Dispatch(s.state, s.data, e).None? ==> t == s
    ensures s.state == Inactive && t.state != Inactive ==> e == Command(StartCommand)
    ensures s.state != Inactive && t.state == Inactive ==>
      || (e == Command(CancelCommand) && t.data == map[])
      || (s.state == PhoneNumber && e.Message? && |TextOf(t.data, PhoneKey)| >= MinPhoneLength)
  {
    match Dispatch(s.state, s.data, e)
    case None => s
    case Some(reply) => Session(After(s.state, reply.outcome), reply.data)
  }

  /** A sequence of updates processed in arrival order. */
  function Run(s: Session, events: seq<Event>): Session
    decreases |events|
  {
    if events == [] then s else Run(Step(s, events[0]), events[1..])
  }

  // ---------------------------------------------------------------------
  // The invariant of the answer store
  // ---------------------------------------------------------------------

  /** The fields every state can rely on having been answered. */
  function Answered(state: State): set<Key> {
    match state
    case Inactive => {}
    case Name => {}
    case Workplace => {FullNameKey}
    case Career => {FullNameKey, WorkplaceKey}
    case Interests => {FullNameKey, WorkplaceKey, CareerFieldKey}
    case Networking => {FullNameKey, WorkplaceKey, CareerFieldKey, InterestsKey, NetworkingKey}
    case Region => {FullNameKey, WorkplaceKey, CareerFieldKey, InterestsKey, NetworkingKey}
    case Languages => {FullNameKey, WorkplaceKey, CareerFieldKey, InterestsKey, NetworkingKey, RegionKey, LanguagesKey}
    case LanguagesText => {FullNameKey, WorkplaceKey, CareerFieldKey, InterestsKey, NetworkingKey, RegionKey, LanguagesKey}
    case MeetFormat => {FullNameKey, WorkplaceKey, CareerFieldKey, InterestsKey, NetworkingKey, RegionKey, LanguagesKey}
    case PhoneNumber => {FullNameKey, WorkplaceKey, CareerFieldKey, InterestsKey, NetworkingKey, RegionKey, LanguagesKey, MeetFormatKey}
  }

  /** States past the goal step, which require at least one goal. */
  predicate PastGoals(state: State) {
    state in {Region, Languages, LanguagesText, MeetFormat, PhoneNumber}
  }

  /** What holds of every session the conversation can reach: fields hold
      the right kind of value, the earlier steps' fields are present, the
      goal selection is non-empty once passed, a fresh start holds no
      answers at all, and the two fields no step asks for are never set. */
  predicate Consistent(s: Session) {
    && WellTyped(s.data)
    && TopicsKey !in s.data && SelfDescKey !in s.data
    && Answered(s.state) <= s.data.Keys
    && (PastGoals(s.state) ==> SelectionOf(s.data, NetworkingKey) != {})
    && (s.state == Name ==> s.data == map[])
  }

  lemma InitialConsistent()
    ensures Consistent(Initial())
  {
  }

  /** Every update keeps the invariant. */
  lemma StepConsistent(s: Session, e: Event)
    requires Consistent(s)
    ensures Consistent(Step(s, e))
  {
    match e
    case Command(_) =>
    case Message(text, contact) => MessageConsistent(s, text, contact);
    case Callback(data) => CallbackConsistent(s, data);
  }

  lemma MessageConsistent(s: Session, text: Option<string>, contact: Option<string>)
    requires Consistent(s)
    ensures Consistent(Step(s, Message(text, contact)))
  {
    if s.state == PhoneNumber {
      PhoneConsistent(s, text, contact);
    } else if text.Some? && TextStep(s.state).Some? {
      TextConsistent(s, text.value, contact);
    }
  }

  lemma TextConsistent(s: Session, text: string, contact: Option<string>)
    requires Consistent(s) && TextStep(s.state).Some?
    ensures Consistent(Step(s, Message(Some(text), contact)))
  {
    TextStepAdvances(s, text, contact);
    StoredTextConsistent(s, Strip(text));
  }

  /** The session a text step leaves after storing `v`. */
  function AfterText(s: Session, v: string): Session
    requires TextStep(s.state).Some?
  {
    var (key, next) := TextStep(s.state).value;
    var stored := s.data[key := Str(v)];
    if next == Networking then Session(next, stored[NetworkingKey := Chosen({})])
    else if next == Languages then Session(next, stored[LanguagesKey := Chosen({})])
    else Session(next, stored)
  }

  lemma StoredTextConsistent(s: Session, v: string)
    requires Consistent(s) && TextStep(s.state).Some?
    ensures Consistent(AfterText(s, v))
  {
  }

  lemma PhoneConsistent(s: Session, text: Option<string>, contact: Option<string>)
    requires Consistent(s) && s.state == PhoneNumber
    ensures Consistent(Step(s, Message(text, contact)))
  {
    if text.Some? || contact.Some? {
      PhoneStep(s, text, contact);
      StoredPhoneConsistent(s, SanitizePhone(Some(PhoneSource(text, contact))));
    }
  }

  lemma StoredPhoneConsistent(s: Session, phone: string)
    requires Consistent(s) && s.state == PhoneNumber
    ensures Consistent(Session(Inactive, s.data[PhoneKey := Str(phone)]))
  {
  }

  lemma CallbackConsistent(s: Session, data: string)
    requires Consistent(s)
    ensures Consistent(Step(s, Callback(data)))
  {
    match s.state
    case Networking => GoalCallbackConsistent(s, data);
    case Languages => LanguageCallbackConsistent(s, data);
    case MeetFormat => FormatCallbackConsistent(s, data);
    case _ =>
  }

  lemma GoalCallbackConsistent(s: Session, data: string)
    requires Consistent(s) && s.state == Networking
    ensures Consistent(Step(s, Callback(data)))
  {
    FixedDataUntagged();
  }

  lemma LanguageCallbackConsistent(s: Session, data: string)
    requires Consistent(s) && s.state == Languages
    ensures Consistent(Step(s, Callback(data)))
  {
    FixedDataUntagged();
  }

  lemma FormatCallbackConsistent(s: Session, data: string)
    requires Consistent(s) && s.state == MeetFormat
    ensures Consistent(Step(s, Callback(data)))
  {
    if StartsWith(data, PickTag + "::") {
      var v := TaggedOption(data, PickTag);
      assert Step(s, Callback(data)) == Session(PhoneNumber, s.data[MeetFormatKey := Str(v)]);
      StoredFormatConsistent(s, v);
    } else {
      assert Step(s, Callback(data)) == s;
    }
  }

  lemma StoredFormatConsistent(s: Session, v: string)
    requires Consistent(s) && s.state == MeetFormat
    ensures Consistent(Session(PhoneNumber, s.data[MeetFormatKey := Str(v)]))
  {
  }

  lemma {:induction false} RunConsistent(s: Session, events: seq<Event>)
    requires Consistent(s)
    ensures Consistent(Run(s, events))
    decreases |events|
  {
    if events != [] {
      StepConsistent(s, events[0]);
      RunConsistent(Step(s, events[0]), events[1..]);
    }
  }

  /** A session the conversation reaches from no conversation at all. */
  function Initial(): Session {
    Session(Inactive, map[])
  }

  /** Whatever updates arrive, the invariant holds. */
  lemma ReachableConsistent(events: seq<Event>)
    ensures Consistent(Run(Initial(), events))
  {
    InitialConsistent();
    RunConsistent(Initial(), events);
  }

  // ---------------------------------------------------------------------
  // Start and cancel
  // ---------------------------------------------------------------------

  /** `/start` from any state, active or not, clears every answer and asks
      for the name. */
  lemma StartResets(s: Session)
    ensures Step(s, Command(StartCommand)) == Session(Name, map[])
  {
  }

  /** `/cancel` inside a conversation clears every answer and ends it;
      outside one no handler of the conversation takes it. */
  lemma CancelEnds(s: Session)
    ensures s.state != Inactive ==> Step(s, Command(CancelCommand)) == Session(Inactive, map[])
    ensures s.state == Inactive ==> Step(s, Command(CancelCommand)) == s
  {
  }

  /** Nothing from before a `/start` survives it: two histories that both
      continue with `/start` and the same updates end the same way. */
  lemma NoAnswersSurviveStart(s1: Session, s2: Session, events: seq<Event>)
    ensures Run(s1, [Command(StartCommand)] + events) == Run(s2, [Command(StartCommand)] + events)
  {
    var e := [Command(StartCommand)] + events;
    assert e[0] == Command(StartCommand) && e[1..] == events;
  }

  /** Outside a conversation only `/start` does anything. */
  lemma InactiveIgnores(s: Session, e: Event)
    requires s.state == Inactive
    requires e != Command(StartCommand)
    ensures Step(s, e) == s
  {
  }

  // ---------------------------------------------------------------------
  // Text steps
  // ---------------------------------------------------------------------

  /** The text step of a state, if it has one: the field it fills and the
      state it moves to. */
  function TextStep(state: State): Option<(Key, State)> {
    match state
    case Name => Some((FullNameKey, Workplace))
    case Workplace => Some((WorkplaceKey, Career))
    case Career => Some((CareerFieldKey, Interests))
    case Interests => Some((InterestsKey, Networking))
    case Region => Some((RegionKey, Languages))
    case LanguagesText => Some((LanguagesTextKey, MeetFormat))
    case _ => None
  }

  /** A text answer is stored stripped, even when empty, and moves to the
      next state in the fixed order name, workplace, career, interests,
      goals, and region, languages, and from the free-text languages to the
      format; entering goals or languages starts that selection empty. */
  lemma TextStepAdvances(s: Session, text: string, contact: Option<string>)
    requires TextStep(s.state).Some?
    ensures Step(s, Message(Some(text), contact)) == AfterText(s, Strip(text))
  {
  }

  /** A message without text is not taken in a text step, and no message is
      taken in a button step. */
  lemma MessagesIgnoredOutsideTextSteps(s: Session, text: Option<string>, contact: Option<string>)
    requires s.state in {Networking, Languages, MeetFormat} || (TextStep(s.state).Some? && text.None?)
    ensures Step(s, Message(text, contact)) == s
  {
  }

  /** A button press is not taken in a step that waits for a message. */
  lemma CallbacksIgnoredInMessageSteps(s: Session, data: string)
    requires s.state !in {Networking, Languages, MeetFormat}
    ensures Step(s, Callback(data)) == s
  {
  }

  // ---------------------------------------------------------------------
  // Multi-select steps
  // ---------------------------------------------------------------------

  /** An option press in the goal step flips that goal, and only that goal,
      in the selection and changes nothing else. */
  lemma GoalPressToggles(s: Session, v: string)
    requires s.state == Networking
    ensures var t := Step(s, Callback(OptionData(v)));
      && t.state == Networking
      && t.data == s.data[NetworkingKey := Chosen(Toggle(SelectionOf(s.data, NetworkingKey), v))]
      && (v in SelectionOf(t.data, NetworkingKey) <==> v !in SelectionOf(s.data, NetworkingKey))
      && (forall w :: w != v ==> (w in SelectionOf(t.data, NetworkingKey) <==> w in SelectionOf(s.data, NetworkingKey)))
  {
    OptionDataDecodes(v);
  }

  /** An option press in the language step flips that language only. */
  lemma LanguagePressToggles(s: Session, v: string)
    requires s.state == Languages
    ensures var t := Step(s, Callback(OptionData(v)));
      && t.state == Languages
      && t.data == s.data[LanguagesKey := Chosen(Toggle(SelectionOf(s.data, LanguagesKey), v))]
  {
    OptionDataDecodes(v);
  }

  /** Pressing the same goal twice gives back the session of before. */
  lemma GoalPressTwice(s: Session, v: string)
    requires s.state == Networking
    requires NetworkingKey in s.data && s.data[NetworkingKey].Chosen?
    ensures Run(s, [Callback(OptionData(v)), Callback(OptionData(v))]) == s
  {
    GoalPressToggles(s, v);
    var t := Step(s, Callback(OptionData(v)));
    GoalPressToggles(t, v);
    ToggleTwice(SelectionOf(s.data, NetworkingKey), v);
    assert Run(s, [Callback(OptionData(v)), Callback(OptionData(v))])
        == Run(t, [Callback(OptionData(v))]);
  }

  /** "Done" in the goal step stays while no goal is selected and moves to
      the region once one is. */
  lemma GoalsDone(s: Session)
    requires s.state == Networking
    ensures Step(s, Callback(DoneData)) ==
      if SelectionOf(s.data, NetworkingKey) == {} then s else Session(Region, s.data)
  {
    FixedDataUntagged();
  }

  /** "Done" in the language step moves to the format with no minimum;
      "other" asks for free text without touching the selection. */
  lemma LanguagesDoneOrOther(s: Session)
    requires s.state == Languages
    ensures Step(s, Callback(DoneData)) == Session(MeetFormat, s.data)
    ensures Step(s, Callback(AltData)) == Session(LanguagesText, s.data)
  {
    FixedDataUntagged();
  }

  /** Free-text languages are stored next to the selected ones, which stay. */
  lemma OtherLanguagesKeepSelection(s: Session, text: string, contact: Option<string>)
    requires s.state == Languages
    ensures var t := Run(s, [Callback(AltData), Message(Some(text), contact)]);
      && t.state == MeetFormat
      && t.data == s.data[LanguagesTextKey := Str(Strip(text))]
      && SelectionOf(t.data, LanguagesKey) == SelectionOf(s.data, LanguagesKey)
  {
    LanguagesDoneOrOther(s);
    var u := Step(s, Callback(AltData));
    assert Run(s, [Callback(AltData), Message(Some(text), contact)]) == Run(u, [Message(Some(text), contact)]);
    TextStepAdvances(u, text, contact);
    assert Run(u, [Message(Some(text), contact)]) == Step(u, Message(Some(text), contact));
  }

  /** Data a button step does not recognise returns `None`, so nothing
      changes: the goal step takes only option presses and "done", the
      language step also "other", and the format step only `pick::` presses,
      so the data of another step's buttons is ignored too. */
  lemma UnknownCallbackIgnored(s: Session, data: string)
    ensures s.state == Networking && !StartsWith(data, OptionTag + "::") && data != DoneData
      ==> Step(s, Callback(data)) == s
    ensures s.state == Languages && !StartsWith(data, OptionTag + "::") && data != AltData && data != DoneData
      ==> Step(s, Callback(data)) == s
    ensures s.state == MeetFormat && !StartsWith(data, PickTag + "::")
      ==> Step(s, Callback(data)) == s
  {
  }

  /** A format press stores the chosen format and asks for the phone. */
  lemma FormatPicked(s: Session, v: string)
    requires s.state == MeetFormat
    ensures Step(s, Callback(PickData(v))) == Session(PhoneNumber, s.data[MeetFormatKey := Str(v)])
  {
    PickDataDecodes(v);
  }

  // ---------------------------------------------------------------------
  // The phone step
  // ---------------------------------------------------------------------

  /** A number that is too short after sanitizing is refused: the phone
      step stays and nothing is stored. An acceptable one is stored and the
      conversation ends. */
  lemma PhoneStep(s: Session, text: Option<string>, contact: Option<string>)
    requires s.state == PhoneNumber
    requires text.Some? || contact.Some?
    ensures var phone := SanitizePhone(Some(PhoneSource(text, contact)));
      Step(s, Message(text, contact)) ==
        if |phone| < MinPhoneLength then s
        else Session(Inactive, s.data[PhoneKey := Str(phone)])
  {
  }

  /** A shared contact with a number wins over any message text. */
  lemma ContactWins(s: Session, t1: Option<string>, t2: Option<string>, number: string)
    requires s.state == PhoneNumber
    requires number != ""
    ensures Step(s, Message(t1, Some(number))) == Step(s, Message(t2, Some(number)))
  {
  }

  /** A stored phone number holds only digits and `+`, has at least seven
      characters, and starts with `+` when it has nine or more. */
  lemma StoredPhoneShape(s: Session, text: Option<string>, contact: Option<string>)
    requires s.state == PhoneNumber
    requires text.Some? || contact.Some?
    requires Step(s, Message(text, contact)).state == Inactive
    ensures var t := Step(s, Message(text, contact));
      && PhoneKey in t.data && t.data[PhoneKey].Str?
      && var phone := t.data[PhoneKey].text;
      && AllPhoneChars(phone)
      && |phone| >= MinPhoneLength
      && (|phone| >= InternationalLength ==> phone[0] == '+')
  {
    var raw := Some(PhoneSource(text, contact));
    var phone := SanitizePhone(raw);
    if |KeepPhoneChars(OrEmpty(raw))| < InternationalLength {
      assert phone == KeepPhoneChars(OrEmpty(raw));
    }
  }

  /** A registration that completes holds every answer the steps ask for,
      at least one goal, and the phone number. */
  lemma CompletedHasAllAnswers(s: Session, text: Option<string>, contact: Option<string>)
    requires Consistent(s)
    requires s.state == PhoneNumber
    requires Step(s, Message(text, contact)).state == Inactive
    ensures var t := Step(s, Message(text, contact));
      && Answered(PhoneNumber) + {PhoneKey} <= t.data.Keys
      && SelectionOf(t.data, NetworkingKey) != {}
      && t.data[PhoneKey].Str?
  {
    assert text.Some? || contact.Some?;
    PhoneStep(s, text, contact);
    var phone := SanitizePhone(Some(PhoneSource(text, contact)));
    assert Step(s, Message(text, contact)) == Session(Inactive, s.data[PhoneKey := Str(phone)]);
    StoredPhoneKeepsAnswers(s, phone);
  }

  /** Proof step of `CompletedHasAllAnswers`: storing a phone in a
      consistent phone step keeps every earlier answer and the goals. */
  lemma StoredPhoneKeepsAnswers(s: Session, phone: string)
    requires Consistent(s)
    requires s.state == PhoneNumber
    ensures var d := s.data[PhoneKey := Str(phone)];
      && Answered(PhoneNumber) + {PhoneKey} <= d.Keys
      && SelectionOf(d, NetworkingKey) != {}
      && d[PhoneKey].Str?
  {
    assert SelectionOf(s.data, NetworkingKey) != {};
  }
}

=== FILE: keyboards.dfy ===
/**
 * Inline keyboards of the registration flow, the callback data their buttons
 * carry, and the toggle a multi-select button press applies to the current
 * selection. A keyboard is its rows of (label, callback data) buttons.
 */
module Keyboards {
  import opened Options
  import opened Strings

  datatype Button = Button(text: string, callbackData: string)

  type Keyboard = seq<seq<Button>>

  const CheckedMark: string := "\U{2611}\U{FE0F}"
  const UncheckedMark: string := "\U{2B1C}\U{FE0F}"

  const OptionTag: string := "opt"
  const PickTag: string := "pick"
  const AltData: string := "alt::text"
  const DoneData: string := "done::ok"

  const AltButton: Button := Button("\U{270D}\U{FE0F} Boshqa (yozib kiriting)", AltData)
  const DoneButton: Button := Button("\U{2705} Tayyor", DoneData)

  /** `f"opt::{opt}"`, the data of a multi-select option button. */
  function OptionData(opt: string): string {
    OptionTag + "::" + opt
  }

  /** `f"pick::{opt}"`, the data of a single-select option button. */
  function PickData(opt: string): string {
    PickTag + "::" + opt
  }

  /** `data.split("::", 1)[1]`; `None` stands for the `IndexError` Python
      raises when the data holds no `::`. */
  function Payload(data: string): Option<string> {
    var parts := SplitOnce(data, "::");
    if |parts| == 2 then Some(parts[1]) else None
  }

  /** Every option button decodes back to exactly its option, even one whose
      text contains `::`. */
  lemma OptionDataDecodes(opt: string)
    ensures Payload(OptionData(opt)) == Some(opt)
  {
    TaggedPayload(OptionTag, opt);
  }

  lemma PickDataDecodes(opt: string)
    ensures Payload(PickData(opt)) == Some(opt)
  {
    TaggedPayload(PickTag, opt);
  }

  /** Any data starting with `tag::` decodes to the rest of the data. */
  lemma PayloadAfterTag(data: string, tag: string)
    requires ':' !in tag
    requires StartsWith(data, tag + "::")
    ensures Payload(data) == Some(data[|tag| + 2..])
  {
    PrefixedPayload(data, tag);
  }

  /** The fixed callback data of the done and free-text buttons carry
      neither option tag, so a handler never mistakes them for an option. */
  lemma FixedDataUntagged()
    ensures !StartsWith(DoneData, OptionTag + "::") && !StartsWith(DoneData, PickTag + "::")
    ensures !StartsWith(AltData, OptionTag + "::") && !StartsWith(AltData, PickTag + "::")
    ensures DoneData != AltData
  {
    assert DoneData[0] == 'd' && AltData[0] == 'a';
    assert (OptionTag + "::")[0] == 'o' && (PickTag + "::")[0] == 'p';
  }

  // ---------------------------------------------------------------------
  // Selection toggle
  // ---------------------------------------------------------------------

  /** What an `opt::v` press does to the selection: remove `v` when it is
      selected, add it otherwise. */
  function Toggle(selected: set<string>, v: string): (r: set<string>)
    ensures v in r <==> v !in selected
    ensures forall w :: w != v ==> (w in r <==> w in selected)
  {
    if v in selected then selected - {v} else selected + {v}
  }

  /** Pressing the same option twice restores the selection. */
  lemma ToggleTwice(selected: set<string>, v: string)
    ensures Toggle(Toggle(selected, v), v) == selected
  {
  }

  // ---------------------------------------------------------------------
  // make_multiselect_kb and make_singleselect_kb
  // ---------------------------------------------------------------------

  function Mark(checked: bool): string {
    if checked then CheckedMark else UncheckedMark
  }

  /** The one-button row shown for `opt`. */
  function OptionButton(opt: string, selected: set<string>): Button {
    Button(Mark(opt in selected) + " " + opt, OptionData(opt))
  }

  /** The trailing row: the free-text button before the done button, each
      only when asked for. */
  function ExtraButtons(withDone: bool, withTextAlt: bool): seq<Button> {
    (if withTextAlt then [AltButton] else []) + (if withDone then [DoneButton] else [])
  }

  /** The keyboard `make_multiselect_kb(options, selected, with_done,
      with_text_alt)` builds. */
  function MultiSelectKeyboard(options: seq<string>, selected: set<string>, withDone: bool, withTextAlt: bool): Keyboard {
    var extra := ExtraButtons(withDone, withTextAlt);
    seq(|options|, i requires 0 <= i < |options| => [OptionButton(options[i], selected)])
      + (if extra == [] then [] else [extra])
  }

  /** The loop of `make_multiselect_kb`: one row per option, then the extra
      row if it has any button. */
  method MakeMultiselectKb(options: seq<string>, selected: set<string>, withDone: bool, withTextAlt: bool)
    returns (rows: Keyboard)
    ensures rows == MultiSelectKeyboard(options, selected, withDone, withTextAlt)
  {
    rows := [];
    for i := 0 to |options|
      invariant |rows| == i
      invariant forall k :: 0 <= k < i ==> rows[k] == [OptionButton(options[k], selected)]
    {
      var opt := options[i];
      var mark := if opt in selected then CheckedMark else UncheckedMark;
      assert "opt::" + opt == OptionData(opt) by { assert OptionTag + "::" == "opt::"; }
      rows := rows + [[Button(mark + " " + opt, "opt::" + opt)]];
    }
    assert rows == seq(|options|, i requires 0 <= i < |options| => [OptionButton(options[i], selected)]);
    var extra: seq<Button> := [];
    if withTextAlt {
      extra := extra + [AltButton];
    }
    if withDone {
      extra := extra + [DoneButton];
    }
    assert extra == ExtraButtons(withDone, withTextAlt);
    if extra != [] {
      rows := rows + [extra];
    }
  }

  /** One row per option in the given order, each holding one button whose
      data decodes to that option and whose mark is the checked one exactly
      when the option is selected; one extra row exactly when a done or
      free-text button is asked for, holding the free-text button first. */
  lemma MultiSelectLayout(options: seq<string>, selected: set<string>, withDone: bool, withTextAlt: bool)
    ensures var kb := MultiSelectKeyboard(options, selected, withDone, withTextAlt);
      && |kb| == |options| + (if withDone || withTextAlt then 1 else 0)
      && (forall i :: 0 <= i < |options| ==>
            && |kb[i]| == 1
            && Payload(kb[i][0].callbackData) == Some(options[i])
            && kb[i][0].text == (if options[i] in selected then CheckedMark else UncheckedMark) + " " + options[i]
            && (CheckedMark <= kb[i][0].text <==> options[i] in selected)
            && kb[i][0].text[|kb[i][0].text| - |options[i]|..] == options[i])
      && (withDone && withTextAlt ==> kb[|options|] == [AltButton, DoneButton])
      && (withDone && !withTextAlt ==> kb[|options|] == [DoneButton])
      && (!withDone && withTextAlt ==> kb[|options|] == [AltButton])
  {
    var kb: Keyboard := MultiSelectKeyboard(options, selected, withDone, withTextAlt);
    forall i | 0 <= i < |options|
      ensures Payload(kb[i][0].callbackData) == Some(options[i])
      ensures CheckedMark <= kb[i][0].text <==> options[i] in selected
    {
      OptionDataDecodes(options[i]);
      if options[i] !in selected {
        assert kb[i][0].text[0] != CheckedMark[0];
      }
    }
  }

  /** The selection changes only the marks: the number of rows, every
      callback, every label's length and every label after its mark are the
      same for any selection, and an option whose membership agrees keeps
      its row unchanged. */
  lemma MultiSelectLayoutIgnoresSelection(options: seq<string>, s1: set<string>, s2: set<string>, withDone: bool, withTextAlt: bool)
    ensures var kb1 := MultiSelectKeyboard(options, s1, withDone, withTextAlt);
      var kb2 := MultiSelectKeyboard(options, s2, withDone, withTextAlt);
      && |kb1| == |kb2|
      && (forall i :: 0 <= i < |kb1| ==> |kb1[i]| == |kb2[i]|)
      && (forall i, j :: 0 <= i < |kb1| && 0 <= j < |kb1[i]| ==> kb1[i][j].callbackData == kb2[i][j].callbackData)
      && (forall i :: 0 <= i < |options| && (options[i] in s1 <==> options[i] in s2) ==> kb1[i] == kb2[i])
      && (forall i :: 0 <= i < |options| ==>
            && |kb1[i][0].text| == |kb2[i][0].text|
            && kb1[i][0].text[|CheckedMark|..] == kb2[i][0].text[|CheckedMark|..])
  {
  }

  /** Pressing an option twice shows the keyboard shown before the first
      press. */
  lemma MultiSelectToggleTwice(options: seq<string>, selected: set<string>, v: string, withDone: bool, withTextAlt: bool)
    ensures MultiSelectKeyboard(options, Toggle(Toggle(selected, v), v), withDone, withTextAlt)
         == MultiSelectKeyboard(options, selected, withDone, withTextAlt)
  {
    ToggleTwice(selected, v);
  }

  /** The keyboard `make_singleselect_kb(options)` builds. */
  function SingleSelectKeyboard(options: seq<string>): Keyboard {
    seq(|options|, i requires 0 <= i < |options| => [Button(options[i], PickData(options[i]))])
  }

  /** One row per option, in order, labelled with the option and carrying
      data that decodes back to it. */
  lemma SingleSelectLayout(options: seq<string>)
    ensures var kb := SingleSelectKeyboard(options);
      && |kb| == |options|
      && forall i :: 0 <= i < |options| ==>
           |kb[i]| == 1 && kb[i][0].text == options[i] && Payload(kb[i][0].callbackData) == Some(options[i])
  {
    forall i | 0 <= i < |options|
      ensures Payload(PickData(options[i])) == Some(options[i])
    {
      PickDataDecodes(options[i]);
    }
  }
}

=== FILE: options.dfy ===
/**
 * An optional value: Python's `None` or a value.
 */
module Options {

  datatype Option<+T> = None | Some(value: T)
}

=== FILE: ordering.dfy ===
/**
 * Python's ordering of `str` values and `sorted(some_set)`: the bot turns
 * each multi-select answer set into a list in this order before joining it.
 */
module Ordering {

  /** Python's `a < b` on strings: code points compared left to right, and a
      proper prefix comes first. */
  predicate Below(a: string, b: string)
    decreases |a|
  {
    |b| > 0 && (|a| == 0 || a[0] < b[0] || (a[0] == b[0] && Below(a[1..], b[1..])))
  }

  lemma {:induction false} BelowIrreflexive(a: string)
    ensures !Below(a, a)
    decreases |a|
  {
    if |a| > 0 {
      BelowIrreflexive(a[1..]);
    }
  }

  lemma {:induction false} BelowTransitive(a: string, b: string, c: string)
    requires Below(a, b) && Below(b, c)
    ensures Below(a, c)
    decreases |a|
  {
    if |a| > 0 && a[0] == b[0] && b[0] == c[0] {
      BelowTransitive(a[1..], b[1..], c[1..]);
    }
  }

  /** Any two different strings are ordered one way or the other. */
  lemma {:induction false} BelowTotal(a: string, b: string)
    ensures a == b || Below(a, b) || Below(b, a)
    decreases |a|
  {
    if |a| > 0 && |b| > 0 && a[0] == b[0] {
      BelowTotal(a[1..], b[1..]);
      if a[1..] == b[1..] {
        assert a == [a[0]] + a[1..] && b == [b[0]] + b[1..];
      }
    }
  }

  lemma BelowAsymmetric(a: string, b: string)
    requires Below(a, b)
    ensures !Below(b, a)
  {
    if Below(b, a) {
      BelowTransitive(a, b, a);
      BelowIrreflexive(a);
    }
  }

  predicate StrictlyAscending(xs: seq<string>) {
    forall i, j :: 0 <= i < j < |xs| ==> Below(xs[i], xs[j])
  }

  predicate IsLeast(m: string, s: set<string>) {
    m in s && forall x :: x in s && x != m ==> Below(m, x)
  }

  /** Every non-empty finite set of strings has a least element. */
  lemma {:induction false} LeastExists(s: set<string>)
    requires s != {}
    ensures exists m :: IsLeast(m, s)
    decreases |s|
  {
    var y :| y in s;
    if s == {y} {
      assert IsLeast(y, s);
    } else {
      var rest := s - {y};
      LeastExists(rest);
      var m :| IsLeast(m, rest);
      BelowTotal(y, m);
      if Below(y, m) {
        forall x | x in s && x != y
          ensures Below(y, x)
        {
          if x != m { BelowTransitive(y, m, x); }
        }
        assert IsLeast(y, s);
      } else {
        assert IsLeast(m, s);
      }
    }
  }

  /** The least element, when there is one, is unique. */
  lemma LeastUnique(s: set<string>)
    ensures forall m, n :: IsLeast(m, s) && IsLeast(n, s) ==> m == n
  {
    forall m, n | IsLeast(m, s) && IsLeast(n, s)
      ensures m == n
    {
      if m != n { BelowAsymmetric(m, n); }
    }
  }

  /** Python's `sorted(s)` for a set of strings. */
  function SortedOf(s: set<string>): (r: seq<string>)
    ensures |r| == |s|
    ensures forall x :: x in r <==> x in s
    ensures StrictlyAscending(r)
    decreases |s|
  {
    if s == {} then []
    else
      LeastExists(s);
      LeastUnique(s);
      var m :| IsLeast(m, s);
      [m] + SortedOf(s - {m})
  }

  /** A strictly ascending list holding exactly the elements of `s` is
      `sorted(s)`: the order of a joined selection depends only on the set. */
  lemma {:induction false} SortedOfUnique(s: set<string>, xs: seq<string>)
    requires StrictlyAscending(xs)
    requires forall x :: x in xs <==> x in s
    ensures xs == SortedOf(s)
    decreases |s|
  {
    if s == {} {
    } else {
      assert xs != [] by { var y :| y in s; assert y in xs; }
      var m := xs[0];
      assert IsLeast(m, s) by {
        forall x | x in s && x != m
          ensures Below(m, x)
        {
          var j :| 0 <= j < |xs| && xs[j] == x;
        }
      }
      LeastUnique(s);
      LeastExists(s);
      var rest := xs[1..];
      forall x
        ensures x in rest <==> x in s - {m}
      {
        if x in rest {
          var j :| 0 <= j < |rest| && rest[j] == x;
          assert Below(xs[0], xs[j + 1]);
          BelowIrreflexive(m);
        }
        if x in s - {m} {
          var j :| 0 <= j < |xs| && xs[j] == x;
          assert j != 0;
          assert rest[j - 1] == x;
        }
      }
      SortedOfUnique(s - {m}, rest);
      assert xs == [m] + rest;
    }
  }
}

=== FILE: phone_numbers.dfy ===
/**
 * `sanitize_phone` and the length rule the phone step applies to its result.
 */
module PhoneNumbers {
  import opened Options
  import opened Strings

  /** The characters a sanitized phone number keeps: decimal digits and `+`. */
  predicate IsPhoneChar(c: char) {
    IsAsciiDigit(c) || c == '+'
  }

  predicate AllPhoneChars(s: string) {
    forall k :: 0 <= k < |s| ==> IsPhoneChar(s[k])
  }

  /** The text with every character other than a digit or `+` dropped. */
  function KeepPhoneChars(s: string): (r: string)
    ensures |r| <= |s|
    ensures AllPhoneChars(r)
  {
    if s == [] then []
    else (if IsPhoneChar(s[0]) then [s[0]] else []) + KeepPhoneChars(s[1..])
  }

  /** Filtering works piece by piece, so it keeps the digits in order. */
  lemma {:induction false} KeepPhoneCharsAppend(a: string, b: string)
    ensures KeepPhoneChars(a + b) == KeepPhoneChars(a) + KeepPhoneChars(b)
  {
    if a == [] {
      assert a + b == b;
    } else {
      assert (a + b)[0] == a[0];
      assert (a + b)[1..] == a[1..] + b;
      KeepPhoneCharsAppend(a[1..], b);
    }
  }

  /** Filtering text that is already clean changes nothing. */
  lemma {:induction false} KeepPhoneCharsClean(s: string)
    requires AllPhoneChars(s)
    ensures KeepPhoneChars(s) == s
  {
    if s != [] {
      KeepPhoneCharsClean(s[1..]);
      assert s == [s[0]] + s[1..];
    }
  }

  /** Python's `raw or ""`. */
  function OrEmpty(raw: Option<string>): string {
    match raw
    case None => ""
    case Some(t) => t
  }

  /** The length from which a cleaned number without a leading `+` gets one. */
  const InternationalLength: nat := 9

  /** `sanitize_phone(raw)`: keep digits and `+`, then put a `+` in front of
      a number of at least nine characters that does not start with one. */
  function SanitizePhone(raw: Option<string>): (r: string)
    ensures AllPhoneChars(r)
    ensures var cleaned := KeepPhoneChars(OrEmpty(raw));
      && (|cleaned| >= InternationalLength ==> r != "" && r[0] == '+')
      && (|cleaned| < InternationalLength ==> r == cleaned)
      && (r == cleaned || r == "+" + cleaned)
    ensures var cleaned := KeepPhoneChars(OrEmpty(raw));
      r == "+" + cleaned <==> (cleaned != "" && cleaned[0] != '+' && |cleaned| >= InternationalLength)
  {
    var cleaned := KeepPhoneChars(OrEmpty(raw));
    if cleaned != "" && cleaned[0] != '+' && |cleaned| >= InternationalLength then "+" + cleaned
    else cleaned
  }

  /** Sanitizing a sanitized number gives the same number. */
  lemma SanitizePhoneIdempotent(raw: Option<string>)
    ensures SanitizePhone(Some(SanitizePhone(raw))) == SanitizePhone(raw)
  {
    var r := SanitizePhone(raw);
    KeepPhoneCharsClean(r);
  }

  /** The shortest sanitized number the phone step accepts. */
  const MinPhoneLength: nat := 7

  /** `not phone or len(phone) < 7` is the rejection test of the phone step. */
  predicate AcceptablePhone(phone: string) {
    !(phone == "" || |phone| < MinPhoneLength)
  }
}

=== FILE: scenarios.dfy ===
/**
 * A whole registration, from `/start` to a shared phone number, and the
 * record `Registration.from_context` builds from its final answers.
 */
module Scenarios {
  import opened Options
  import opened Strings
  import opened Ordering
  import opened Keyboards
  import opened PhoneNumbers
  import opened Answers
  import opened Flow
  import opened Storage

  /** Processing two batches of updates one after the other is processing
      them together. */
  lemma {:induction false} RunAppend(s: Session, a: seq<Event>, b: seq<Event>)
    ensures Run(s, a + b) == Run(Run(s, a), b)
    decreases |a|
  {
    if a == [] {
      assert a + b == b;
    } else {
      assert (a + b)[0] == a[0];
      assert (a + b)[1..] == a[1..] + b;
      RunAppend(Step(s, a[0]), a[1..], b);
    }
  }

  function Text(t: string): Event {
    Message(Some(t), None)
  }

  /** `/start` and the four opening text answers. */
  function Opening(name: string, work: string, career: string, interests: string): seq<Event> {
    [Command(StartCommand), Text(name), Text(work), Text(career), Text(interests)]
  }

  /** Two goals pressed, then "done". */
  function GoalAnswers(g1: string, g2: string): seq<Event> {
    [Callback(OptionData(g1)), Callback(OptionData(g2)), Callback(DoneData)]
  }

  /** The region, one language pressed, "other" and the free text. */
  function LanguageAnswers(region: string, lang: string, other: string): seq<Event> {
    [Text(region), Callback(OptionData(lang)), Callback(AltData), Text(other)]
  }

  /** The format picked and the phone typed. */
  function Closing(format: string, phone: string): seq<Event> {
    [Callback(PickData(format)), Text(phone)]
  }

  /** The store after the opening, from the four values stored. */
  function OpeningStore(name: string, work: string, career: string, interests: string): UserData {
    map[FullNameKey := Str(name), WorkplaceKey := Str(work), CareerFieldKey := Str(career),
        InterestsKey := Str(interests), NetworkingKey := Chosen({})]
  }

  function OpeningData(name: string, work: string, career: string, interests: string): UserData {
    OpeningStore(Strip(name), Strip(work), Strip(career), Strip(interests))
  }

  /** Proof step of `OpeningRun`: a text answer in one of the plain text
      steps stores it and moves on. */
  lemma TextAnswered(st: State, d: UserData, text: string)
    requires st in {Name, Workplace, Career}
    ensures var (key, next) := TextStep(st).value;
      Step(Session(st, d), Text(text)) == Session(next, d[key := Str(Strip(text))])
  {
    TextStepAdvances(Session(st, d), text, None);
  }

  lemma OpeningRun(s: Session, name: string, work: string, career: string, interests: string)
    ensures Run(s, Opening(name, work, career, interests))
         == Session(Networking, OpeningData(name, work, career, interests))
  {
    var e := Opening(name, work, career, interests);
    var s1 := Session(Name, map[]);
    StartResets(s);
    var s2 := Session(Workplace, s1.data[FullNameKey := Str(Strip(name))]);
    TextAnswered(Name, s1.data, name);
    var s3 := Session(Career, s2.data[WorkplaceKey := Str(Strip(work))]);
    TextAnswered(Workplace, s2.data, work);
    var s4 := Session(Interests, s3.data[CareerFieldKey := Str(Strip(career))]);
    TextAnswered(Career, s3.data, career);
    var s5 := Session(Networking, OpeningData(name, work, career, interests));
    assert Step(s4, e[4]) == s5 by {
      TextStepAdvances(s4, interests, None);
    }
    assert Run(s, e) == Run(s1, e[1..]);
    assert Run(s1, e[1..]) == Run(s2, e[2..]);
    assert Run(s2, e[2..]) == Run(s3, e[3..]);
    assert Run(s3, e[3..]) == Run(s4, e[4..]);
    assert Run(s4, e[4..]) == Run(s5, e[5..]);
  }

  /** Proof step of `GoalsRun`: a second update of the goal set replaces
      the first. */
  lemma UpdateTwice(d: UserData, k: Key, a: Answer, b: Answer)
    ensures d[k := a][k := b] == d[k := b]
  {
  }

  /** Proof step of `GoalsRun`: a press on a goal not yet selected adds it. */
  lemma GoalAdded(d: UserData, v: string)
    requires v !in SelectionOf(d, NetworkingKey)
    ensures Step(Session(Networking, d), Callback(OptionData(v)))
         == Session(Networking, d[NetworkingKey := Chosen(SelectionOf(d, NetworkingKey) + {v})])
  {
    GoalPressToggles(Session(Networking, d), v);
    assert Toggle(SelectionOf(d, NetworkingKey), v) == SelectionOf(d, NetworkingKey) + {v};
  }

  lemma GoalsRun(d: UserData, g1: string, g2: string)
    requires SelectionOf(d, NetworkingKey) == {}
    requires g1 != g2
    ensures Run(Session(Networking, d), GoalAnswers(g1, g2))
         == Session(Region, d[NetworkingKey := Chosen({g1, g2})])
  {
    var e := GoalAnswers(g1, g2);
    var d1 := d[NetworkingKey := Chosen({g1})];
    var d2 := d[NetworkingKey := Chosen({g1, g2})];
    GoalAdded(d, g1);
    assert {} + {g1} == {g1};
    assert SelectionOf(d1, NetworkingKey) == {g1};
    GoalAdded(d1, g2);
    UpdateTwice(d, NetworkingKey, Chosen({g1}), Chosen({g1} + {g2}));
    assert {g1} + {g2} == {g1, g2};
    GoalsDone(Session(Networking, d2));
    assert g1 in SelectionOf(d2, NetworkingKey);
    assert Run(Session(Networking, d), e) == Run(Session(Networking, d1), e[1..]);
    assert Run(Session(Networking, d1), e[1..]) == Run(Session(Networking, d2), e[2..]);
    assert Run(Session(Networking, d2), e[2..]) == Run(Session(Region, d2), e[3..]);
  }

  lemma LanguagesRun(d: UserData, region: string, lang: string, other: string)
    ensures Run(Session(Region, d), LanguageAnswers(region, lang, other))
         == Session(MeetFormat, d[RegionKey := Str(Strip(region))][LanguagesKey := Chosen({lang})]
                                 [LanguagesTextKey := Str(Strip(other))])
  {
    var e := LanguageAnswers(region, lang, other);
    var s0 := Session(Region, d);
    var s1 := Step(s0, e[0]);
    assert s1 == Session(Languages, d[RegionKey := Str(Strip(region))][LanguagesKey := Chosen({})]);
    LanguagePressToggles(s1, lang);
    assert Toggle({}, lang) == {lang};
    var s2 := Step(s1, e[1]);
    assert s2 == Session(Languages, d[RegionKey := Str(Strip(region))][LanguagesKey := Chosen({lang})]);
    OtherLanguagesKeepSelection(s2, other, None);
    assert Run(s0, e) == Run(s1, e[1..]);
    assert Run(s1, e[1..]) == Run(s2, e[2..]);
  }

  lemma ClosingRun(d: UserData, format: string, phone: string)
    requires |SanitizePhone(Some(Strip(phone)))| >= MinPhoneLength
    ensures Run(Session(MeetFormat, d), Closing(format, phone))
         == Session(Inactive, d[MeetFormatKey := Str(format)][PhoneKey := Str(SanitizePhone(Some(Strip(phone))))])
  {
    var e := Closing(format, phone);
    var s0 := Session(MeetFormat, d);
    FormatPicked(s0, format);
    var s1 := Step(s0, e[0]);
    PhoneStep(s1, Some(phone), None);
    var s2 := Step(s1, e[1]);
    assert Run(s0, e) == Run(s1, e[1..]);
    assert Run(s1, e[1..]) == Run(s2, e[2..]);
  }

  /** Every update of the registration below, in order. */
  function AllEvents(name: string, work: string, career: string, interests: string,
                     g1: string, g2: string, region: string, lang: string, other: string,
                     format: string, phone: string): seq<Event> {
    Opening(name, work, career, interests) + GoalAnswers(g1, g2)
      + LanguageAnswers(region, lang, other) + Closing(format, phone)
  }

  lemma FullRun(s: Session, name: string, work: string, career: string, interests: string,
                g1: string, g2: string, region: string, lang: string, other: string,
                format: string, phone: string)
    requires g1 != g2
    requires |SanitizePhone(Some(Strip(phone)))| >= MinPhoneLength
    ensures Run(s, AllEvents(name, work, career, interests, g1, g2, region, lang, other, format, phone))
         == Session(Inactive, Completed(Strip(name), Strip(work), Strip(career), Strip(interests), {g1, g2}, Strip(region), {lang},
                                        Strip(other), format, SanitizePhone(Some(Strip(phone)))))
  {
    var a := Opening(name, work, career, interests);
    var b := GoalAnswers(g1, g2);
    var c := LanguageAnswers(region, lang, other);
    var d := Closing(format, phone);
    OpeningRun(s, name, work, career, interests);
    var d1 := OpeningData(name, work, career, interests);
    GoalsRun(d1, g1, g2);
    var d2 := d1[NetworkingKey := Chosen({g1, g2})];
    LanguagesRun(d2, region, lang, other);
    var d3 := d2[RegionKey := Str(Strip(region))][LanguagesKey := Chosen({lang})][LanguagesTextKey := Str(Strip(other))];
    ClosingRun(d3, format, phone);
    RunAppend(s, a, b);
    RunAppend(s, a + b, c);
    RunAppend(s, a + b + c, d);
  }

  /** The answer store of a completed registration, from the values stored. */
  function Completed(name: string, work: string, career: string, interests: string,
                     goals: set<string>, region: string, langs: set<string>, other: string,
                     format: string, phone: string): UserData {
    OpeningStore(name, work, career, interests)[NetworkingKey := Chosen(goals)]
      [RegionKey := Str(region)][LanguagesKey := Chosen(langs)][LanguagesTextKey := Str(other)]
      [MeetFormatKey := Str(format)][PhoneKey := Str(phone)]
  }

  lemma CompletedTexts(name: string, work: string, career: string, interests: string,
                       goals: set<string>, region: string, langs: set<string>, other: string,
                       format: string, phone: string)
    ensures var d := Completed(name, work, career, interests, goals, region, langs, other, format, phone);
      && TextOf(d, FullNameKey) == name && TextOf(d, WorkplaceKey) == work
      && TextOf(d, CareerFieldKey) == career && TextOf(d, InterestsKey) == interests
      && TextOf(d, RegionKey) == region && TextOf(d, MeetFormatKey) == format
      && TextOf(d, TopicsKey) == "" && TextOf(d, SelfDescKey) == ""
  {
  }

  lemma CompletedLists(name: string, work: string, career: string, interests: string,
                       g1: string, g2: string, region: string, lang: string, other: string,
                       format: string, phone: string)
    requires Below(g1, g2)
    requires other != ""
    ensures var d := Completed(name, work, career, interests, {g1, g2}, region, {lang}, other, format, phone);
      && JoinedSelection(d, NetworkingKey) == g1 + ListSeparator + g2
      && JoinedLanguages(d) == lang + ListSeparator + other
  {
    var d := Completed(name, work, career, interests, {g1, g2}, region, {lang}, other, format, phone);
    assert SelectionOf(d, NetworkingKey) == {g1, g2};
    assert SelectionOf(d, LanguagesKey) == {lang};
    assert TextOf(d, LanguagesTextKey) == other;
    BelowIrreflexive(g1);
    JoinedSelectionAscending(d, NetworkingKey, [g1, g2]);
    assert Join([g1, g2], ListSeparator) == g1 + ListSeparator + Join([g2], ListSeparator);
    JoinedSelectionAscending(d, LanguagesKey, [lang]);
    LanguagesTextLast(d);
  }

  /** Whatever came before, a user who starts over, answers every step,
      picks two goals `g1 < g2`, one language plus free text, a format and a
      valid phone ends the conversation, and the record built from the
      final answers holds exactly those answers, both list lines in the
      bot's order, and empty topics and self description. */
  lemma FullRegistration(s: Session, name: string, work: string, career: string, interests: string,
                         g1: string, g2: string, region: string, lang: string, other: string,
                         format: string, phone: string, user: User, now: string)
    requires Below(g1, g2)
    requires Strip(other) != ""
    requires |SanitizePhone(Some(Strip(phone)))| >= MinPhoneLength
    ensures var t := Run(s, AllEvents(name, work, career, interests, g1, g2, region, lang, other, format, phone));
      && t.state == Inactive
      && FromContext(t.data, user, now) == Registration(
           user.id, user.username, Strip(name), Strip(work), Strip(career), Strip(interests),
           g1 + ListSeparator + g2, Strip(region), lang + ListSeparator + Strip(other),
           "", format, "", now)
  {
    BelowIrreflexive(g1);
    FullRun(s, name, work, career, interests, g1, g2, region, lang, other, format, phone);
    CompletedTexts(Strip(name), Strip(work), Strip(career), Strip(interests), {g1, g2}, Strip(region), {lang},
                   Strip(other), format, SanitizePhone(Some(Strip(phone))));
    CompletedLists(Strip(name), Strip(work), Strip(career), Strip(interests), g1, g2, Strip(region), lang,
                   Strip(other), format, SanitizePhone(Some(Strip(phone))));
  }
}

=== FILE: storage.dfy ===
/**
 * The flat registration record of `storage.py`, and
 * `Registration.from_context`, which builds it from the answer store, the
 * Telegram user and the current local time (passed in as its text). The
 * registration bot itself never builds or saves one; the lemmas say what
 * the record would hold for the answers a conversation leaves.
 */
module Storage {
  import opened Options
  import opened Strings
  import opened Ordering
  import opened Answers
  import opened Flow

  /** The effective Telegram user of an update. */
  datatype User = User(id: int, username: Option<string>)

  datatype Registration = Registration(
    telegramId: int,
    telegramUsername: Option<string>,
    fullName: string,
    workplace: string,
    careerField: string,
    interests: string,
    networkingGoals: string,
    region: string,
    languages: string,
    topics: string,
    meetFormat: string,
    selfDesc: string,
    createdAt: string)

  /** `Registration.from_context`, with the formatted local time `now`. */
  function FromContext(ud: UserData, user: User, now: string): (r: Registration)
    ensures r.telegramId == user.id && r.telegramUsername == user.username && r.createdAt == now
    ensures SelectionOf(ud, NetworkingKey) == {} ==> r.networkingGoals == ""
  {
    Registration(
      telegramId := user.id,
      telegramUsername := user.username,
      fullName := TextOf(ud, FullNameKey),
      workplace := TextOf(ud, WorkplaceKey),
      careerField := TextOf(ud, CareerFieldKey),
      interests := TextOf(ud, InterestsKey),
      networkingGoals := JoinedSelection(ud, NetworkingKey),
      region := TextOf(ud, RegionKey),
      languages := JoinedLanguages(ud),
      topics := TextOf(ud, TopicsKey),
      meetFormat := TextOf(ud, MeetFormatKey),
      selfDesc := TextOf(ud, SelfDescKey),
      createdAt := now)
  }

  /** The record's text fields, in record order, with their keys. */
  function TextFields(r: Registration): seq<(Key, string)> {
    [(FullNameKey, r.fullName), (WorkplaceKey, r.workplace), (CareerFieldKey, r.careerField),
     (InterestsKey, r.interests), (RegionKey, r.region), (TopicsKey, r.topics),
     (MeetFormatKey, r.meetFormat), (SelfDescKey, r.selfDesc)]
  }

  /** Each text field is the stored text answer, and `""` when the answer
      is missing. */
  lemma RecordTextFields(ud: UserData, user: User, now: string)
    requires WellTyped(ud)
    ensures var fields := TextFields(FromContext(ud, user, now));
      forall i :: 0 <= i < |fields| ==>
        var (key, value) := fields[i];
        && (key in ud ==> ud[key] == Str(value))
        && (key !in ud ==> value == "")
  {
    var fields := TextFields(FromContext(ud, user, now));
    forall i | 0 <= i < |fields|
      ensures fields[i].0 in ud ==> ud[fields[i].0] == Str(fields[i].1)
      ensures fields[i].0 !in ud ==> fields[i].1 == ""
    {
      assert fields[i].1 == TextOf(ud, fields[i].0);
    }
  }

  /** The identity and the time come from the user and the clock, whatever
      was answered. */
  lemma RecordIdentity(ud1: UserData, ud2: UserData, user: User, now: string)
    ensures var r1 := FromContext(ud1, user, now);
      var r2 := FromContext(ud2, user, now);
      && r1.telegramId == r2.telegramId == user.id
      && r1.telegramUsername == r2.telegramUsername == user.username
      && r1.createdAt == r2.createdAt == now
  {
  }

  /** The goal line is the selected goals in ascending order joined by
      ", ", and empty when no goal set was stored. */
  lemma RecordGoals(ud: UserData, user: User, now: string, xs: seq<string>)
    requires StrictlyAscending(xs)
    requires forall x :: x in xs <==> x in SelectionOf(ud, NetworkingKey)
    ensures FromContext(ud, user, now).networkingGoals == Join(xs, ListSeparator)
    ensures NetworkingKey !in ud ==> FromContext(ud, user, now).networkingGoals == ""
  {
    JoinedSelectionAscending(ud, NetworkingKey, xs);
  }

  /** The language line is the selected languages in ascending order, then
      the free-text languages when those are non-empty, joined by ", ". */
  lemma RecordLanguages(ud: UserData, user: User, now: string, xs: seq<string>)
    requires StrictlyAscending(xs)
    requires forall x :: x in xs <==> x in SelectionOf(ud, LanguagesKey)
    ensures var other := TextOf(ud, LanguagesTextKey);
      FromContext(ud, user, now).languages ==
        if other == "" then Join(xs, ListSeparator)
        else if xs == [] then other
        else Join(xs, ListSeparator) + ListSeparator + other
  {
    JoinedSelectionAscending(ud, LanguagesKey, xs);
    if TextOf(ud, LanguagesTextKey) == "" {
      LanguagesWithoutText(ud);
    } else {
      LanguagesTextLast(ud);
      if xs == [] {
        assert SelectionOf(ud, LanguagesKey) == {};
      } else {
        assert xs[0] in SelectionOf(ud, LanguagesKey);
      }
    }
  }

  /** No step asks for topics or a self description, so a record built at
      any point of any conversation leaves both empty. */
  lemma UnaskedFieldsEmpty(events: seq<Event>, user: User, now: string)
    ensures var r := FromContext(Run(Initial(), events).data, user, now);
      r.topics == "" && r.selfDesc == ""
  {
    ReachableConsistent(events);
  }
}

=== FILE: strings.dfy ===
/**
 * The handful of Python string operations the registration bot relies on:
 * `str.strip()`, `str.split(",")`, `sep.join(...)`, `str.split("::", 1)`,
 * `str.startswith`, and a decimal `int(...)` / `str(int)` pair.
 * Strings are sequences of Unicode code points, as Python's `str` is.
 */
module Strings {
  import opened Options

  // ---------------------------------------------------------------------
  // Whitespace and str.strip()
  // ---------------------------------------------------------------------

  /** The characters Python's `str.isspace()` accepts, which is the set
      `str.strip()` with no argument removes. */
  predicate IsSpace(c: char) {
    || ('\t' <= c <= '\r')
    || ('\U{1C}' <= c <= '\U{1F}')
    || c == ' ' || c == '\U{85}' || c == '\U{A0}' || c == '\U{1680}'
    || ('\U{2000}' <= c <= '\U{200A}')
    || c == '\U{2028}' || c == '\U{2029}' || c == '\U{202F}' || c == '\U{205F}'
    || c == '\U{3000}'
  }

  predicate AllSpace(s: string) {
    forall k :: 0 <= k < |s| ==> IsSpace(s[k])
  }

  /** Number of whitespace characters at the front of `s`. */
  function LeadingSpace(s: string): (n: nat)
    ensures n <= |s|
    ensures AllSpace(s[..n])
    ensures n < |s| ==> !IsSpace(s[n])
  {
    if |s| == 0 || !IsSpace(s[0]) then 0
    else
      var m := LeadingSpace(s[1..]);
      assert s[1..][..m] == s[1..m + 1];
      1 + m
  }

  /** Number of whitespace characters at the end of `s`. */
  function TrailingSpace(s: string): (n: nat)
    ensures n <= |s|
    ensures AllSpace(s[|s| - n..])
    ensures n < |s| ==> !IsSpace(s[|s| - n - 1])
  {
    if |s| == 0 || !IsSpace(s[|s| - 1]) then 0
    else
      var m := TrailingSpace(s[..|s| - 1]);
      assert AllSpace(s[|s| - 1 - m..]) by {
        var tail := s[|s| - 1 - m..];
        forall k | 0 <= k < |tail|
          ensures IsSpace(tail[k])
        {
          if k < m {
            assert tail[k] == s[..|s| - 1][|s| - 1 - m..][k];
          }
        }
      }
      1 + m
  }

  /** Python's `s.strip()`. */
  function Strip(s: string): (r: string)
    ensures |r| <= |s|
  {
    var i := LeadingSpace(s);
    var t := s[i..];
    var j := TrailingSpace(t);
    t[..|t| - j]
  }

  /** A stripped string neither starts nor ends with whitespace, and it is
      empty exactly when the input is all whitespace. */
  lemma StripShape(s: string)
    ensures var r := Strip(s);
      && (r == "" || (!IsSpace(r[0]) && !IsSpace(r[|r| - 1])))
      && (r == "" <==> AllSpace(s))
  {
    var i := LeadingSpace(s);
    if i == |s| {
      assert s[..i] == s;
    }
  }

  /** What `strip()` removed is whitespace on both sides of a slice of `s`. */
  lemma StripIsSlice(s: string) returns (i: nat)
    ensures i + |Strip(s)| <= |s|
    ensures Strip(s) == s[i..i + |Strip(s)|]
    ensures AllSpace(s[..i]) && AllSpace(s[i + |Strip(s)|..])
  {
    i := LeadingSpace(s);
    var t := s[i..];
    var j := TrailingSpace(t);
    assert s[i + |Strip(s)|..] == t[|t| - j..];
  }

  /** Stripping a stripped string changes nothing. */
  lemma StripIdempotent(s: string)
    ensures Strip(Strip(s)) == Strip(s)
  {
    StripShape(s);
    var r := Strip(s);
    var i := LeadingSpace(r);
    assert i == 0;
    assert r[0..] == r;
    assert TrailingSpace(r) == 0;
  }

  // ---------------------------------------------------------------------
  // str.split(c) and sep.join(xs)
  // ---------------------------------------------------------------------

  /** Python's `s.split(c)` for a one-character separator: the pieces
      between separators, always at least one (`"".split(",") == [""]`). */
  function Split(s: string, c: char): (pieces: seq<string>)
    ensures |pieces| >= 1
    ensures forall k :: 0 <= k < |pieces| ==> c !in pieces[k]
  {
    if |s| == 0 then [""]
    else if s[0] == c then [""] + Split(s[1..], c)
    else
      var rest := Split(s[1..], c);
      [[s[0]] + rest[0]] + rest[1..]
  }

  /** Python's `sep.join(xs)`. */
  function Join(xs: seq<string>, sep: string): string
  {
    if |xs| == 0 then ""
    else if |xs| == 1 then xs[0]
    else xs[0] + sep + Join(xs[1..], sep)
  }

  /** Joining the pieces of a split with the separator gives back the
      original string: with the separator-free pieces this pins `Split` down. */
  lemma {:induction false} SplitThenJoin(s: string, c: char)
    ensures Join(Split(s, c), [c]) == s
  {
    if |s| == 0 {
    } else if s[0] == c {
      SplitThenJoin(s[1..], c);
      assert s == [c] + s[1..];
    } else {
      var rest := Split(s[1..], c);
      SplitThenJoin(s[1..], c);
      if |rest| == 1 {
        assert s == [s[0]] + s[1..];
      } else {
        assert Join(rest, [c]) == rest[0] + [c] + Join(rest[1..], [c]);
        assert s == [s[0]] + s[1..];
      }
    }
  }

  /** Appending one item to a non-empty list appends separator and item to
      the joined text: the last item of a join is its tail. */
  lemma {:induction false} JoinSnoc(xs: seq<string>, y: string, sep: string)
    requires xs != []
    ensures Join(xs + [y], sep) == Join(xs, sep) + sep + y
  {
    if |xs| == 1 {
      assert xs + [y] == [xs[0], y];
    } else {
      assert (xs + [y])[1..] == xs[1..] + [y];
      JoinSnoc(xs[1..], y, sep);
    }
  }

  // ---------------------------------------------------------------------
  // str.startswith and str.split(sep, 1)
  // ---------------------------------------------------------------------

  predicate StartsWith(s: string, prefix: string) {
    prefix <= s
  }

  predicate OccursAt(s: string, sep: string, i: int) {
    0 <= i && i + |sep| <= |s| && s[i..i + |sep|] == sep
  }

  /** The first position at or after `from` where `sep` occurs in `s`. */
  function FindFrom(s: string, sep: string, from: nat): (r: Option<nat>)
    requires from <= |s|
    ensures r.Some? ==> from <= r.value && OccursAt(s, sep, r.value)
    ensures r.Some? ==> forall j :: from <= j < r.value ==> !OccursAt(s, sep, j)
    ensures r.None? ==> forall j :: from <= j ==> !OccursAt(s, sep, j)
    decreases |s| - from
  {
    if from + |sep| > |s| then None
    else if s[from..from + |sep|] == sep then Some(from)
    else FindFrom(s, sep, from + 1)
  }

  /** Python's `s.split(sep, 1)`: `[s]` when `sep` does not occur, otherwise
      the text before and after its first occurrence. Python refuses an
      empty separator. */
  function SplitOnce(s: string, sep: string): (parts: seq<string>)
    requires sep != ""
    ensures |parts| == 1 || |parts| == 2
    ensures |parts| == 1 <==> forall j :: !OccursAt(s, sep, j)
    ensures |parts| == 1 ==> parts[0] == s
    ensures |parts| == 2 ==> s == parts[0] + sep + parts[1]
    ensures |parts| == 2 ==> forall j :: j < |parts[0]| ==> !OccursAt(s, sep, j)
  {
    match FindFrom(s, sep, 0)
    case None => [s]
    case Some(i) =>
      assert s == s[..i] + sep + s[i + |sep|..];
      [s[..i], s[i + |sep|..]]
  }

  /** `(tag + "::" + v).split("::", 1)[1] == v` whenever the tag has no
      colon, however many `::` the payload `v` itself contains. */
  lemma TaggedPayload(tag: string, v: string)
    requires ':' !in tag
    ensures SplitOnce(tag + "::" + v, "::") == [tag, v]
  {
    var s := tag + "::" + v;
    assert OccursAt(s, "::", |tag|) by { assert s[|tag|..|tag| + 2] == "::"; }
    var parts := SplitOnce(s, "::");
    assert |parts| == 2;
    var p := |parts[0]|;
    assert s[p] == ':' by { assert s == parts[0] + "::" + parts[1]; }
    assert parts[0] == s[..p] == tag;
    assert parts[1] == s[p + 2..] == v;
  }

  /** A string that starts with `tag::` is that prefix plus its payload. */
  lemma PrefixedPayload(s: string, tag: string)
    requires ':' !in tag
    requires StartsWith(s, tag + "::")
    ensures SplitOnce(s, "::") == [tag, s[|tag| + 2..]]
  {
    assert s == tag + "::" + s[|tag| + 2..];
    TaggedPayload(tag, s[|tag| + 2..]);
  }

  // ---------------------------------------------------------------------
  // Decimal integers: int(s) and str(n)
  // ---------------------------------------------------------------------

  predicate IsAsciiDigit(c: char) {
    '0' <= c <= '9'
  }

  predicate AllDigits(s: string) {
    forall k :: 0 <= k < |s| ==> IsAsciiDigit(s[k])
  }

  /** The value of a run of decimal digits, most significant first. */
  function DigitsValue(ds: string): int {
    if ds == [] then 0
    else DigitsValue(ds[..|ds| - 1]) * 10 + ((ds[|ds| - 1] as int) - ('0' as int))
  }

  /** Python's `int(s)` on text already stripped: an optional `+` or `-`
      followed by one or more decimal digits; anything else is the
      `ValueError` the caller catches. */
  function ParseInt(s: string): (r: Option<int>)
    ensures s == "" ==> r.None?
  {
    if |s| > 0 && (s[0] == '+' || s[0] == '-') then
      if |s| > 1 && AllDigits(s[1..]) then
        Some(if s[0] == '-' then -DigitsValue(s[1..]) else DigitsValue(s[1..]))
      else None
    else if |s| > 0 && AllDigits(s) then Some(DigitsValue(s))
    else None
  }

  /** Decimal digits of a natural number, most significant first. */
  function NatDecimal(n: nat): (ds: string)
    ensures ds != [] && AllDigits(ds)
  {
    if n < 10 then [('0' as int + n) as char]
    else NatDecimal(n / 10) + [('0' as int + n % 10) as char]
  }

  /** Python's `str(n)` for an integer. */
  function Decimal(n: int): string
  {
    if n < 0 then "-" + NatDecimal(-n) else NatDecimal(n)
  }

  lemma {:induction false} NatDecimalValue(n: nat)
    ensures DigitsValue(NatDecimal(n)) == n
  {
    if n >= 10 {
      var ds := NatDecimal(n);
      assert ds[..|ds| - 1] == NatDecimal(n / 10);
      NatDecimalValue(n / 10);
    }
  }

  /** `int(str(n)) == n`: the parser reads back every rendered integer. */
  lemma ParseDecimal(n: int)
    ensures ParseInt(Decimal(n)) == Some(n)
  {
    if n < 0 {
      NatDecimalValue(-n);
      assert Decimal(n)[1..] == NatDecimal(-n);
    } else {
      NatDecimalValue(n);
    }
  }
}

=== FILE: summary.dfy ===
/**
 * The values `build_summary` fills into the message sent to the user and
 * the organizers on completion: the user link, the answers, the two list
 * lines and the phone. The message template around them is not modelled.
 */
module Summary {
  import opened Options
  import opened Strings
  import opened Answers
  import opened Flow
  import opened Storage

  /** Shown when no phone number was stored. */
  const NoPhone: string := "\U{2014}"

  datatype SummaryFields = SummaryFields(
    userLink: string,
    fullName: string,
    workplace: string,
    careerField: string,
    interests: string,
    networking: string,
    region: string,
    languages: string,
    meetFormat: string,
    phone: string)

  /** `@username` when the user has a non-empty username, else the id. */
  function UserLink(user: User): string {
    if user.username.Some? && user.username.value != "" then "@" + user.username.value
    else Decimal(user.id)
  }

  /** `data.get("phone", "—")`. */
  function PhoneShown(ud: UserData): string {
    if PhoneKey in ud && ud[PhoneKey].Str? then ud[PhoneKey].text else NoPhone
  }

  function SummaryOf(ud: UserData, user: User): SummaryFields {
    SummaryFields(
      userLink := UserLink(user),
      fullName := TextOf(ud, FullNameKey),
      workplace := TextOf(ud, WorkplaceKey),
      careerField := TextOf(ud, CareerFieldKey),
      interests := TextOf(ud, InterestsKey),
      networking := JoinedSelection(ud, NetworkingKey),
      region := TextOf(ud, RegionKey),
      languages := JoinedLanguages(ud),
      meetFormat := TextOf(ud, MeetFormatKey),
      phone := PhoneShown(ud))
  }

  /** The organizers are shown exactly the values the record would hold. */
  lemma SummaryAgreesWithRecord(ud: UserData, user: User, now: string)
    ensures var m := SummaryOf(ud, user);
      var r := FromContext(ud, user, now);
      && m.fullName == r.fullName && m.workplace == r.workplace
      && m.careerField == r.careerField && m.interests == r.interests
      && m.networking == r.networkingGoals && m.region == r.region
      && m.languages == r.languages && m.meetFormat == r.meetFormat
  {
  }

  /** The link names the user: the username after `@`, or the decimal id
      that reads back as the id. */
  lemma UserLinkIdentifies(user: User)
    ensures var link := UserLink(user);
      if user.username.Some? && user.username.value != "" then
        link != "" && link[0] == '@' && link[1..] == user.username.value
      else ParseInt(link) == Some(user.id)
  {
    if !(user.username.Some? && user.username.value != "") {
      ParseDecimal(user.id);
    }
  }

  /** The summary of a completed registration shows the stored phone
      number, never the placeholder. */
  lemma CompletedSummaryPhone(s: Session, text: Option<string>, contact: Option<string>, user: User)
    requires Consistent(s)
    requires s.state == PhoneNumber
    requires Step(s, Message(text, contact)).state == Inactive
    ensures var t := Step(s, Message(text, contact));
      && SummaryOf(t.data, user).phone == t.data[PhoneKey].text
      && |SummaryOf(t.data, user).phone| >= 7
  {
    CompletedHasAllAnswers(s, text, contact);
    StoredPhoneShape(s, text, contact);
  }
}
